=== FILE: README.md ===
# deposily core in Dafny

deposily lets an organization upload bank statements, turn the credits on
them into `payments` rows, keep a register of payers and the references
they put on their deposits, assign deposits that arrived without a known
payer, and notify users. This project models the logic of that core as
pure Dafny functions over immutable data and proves what it promises:

- `BankCsvParser` — `parseBankCSV`: the row loop over already split CSV rows,
  the ordered date-format search, comma-insensitive amount parsing, the
  error messages, and the credit filter.
- `AiParser` — `parseFile`: dispatch on the lower-cased extension, the
  flattening of CSV records into text lines, and the schema that
  `extractTransactionsWithAI` enforces on the model's answer.
- `ProcessBankStatement` — the `processBankStatement` server action:
  required-field validation, the `processFile` flag, the file extension and
  the sanitised storage path, upload-error messages, the statement row and
  one payment row per extracted transaction.
- `FileUpload` — the upload dialog: the file-name stem computed on drop, the
  form entries sent to the action, and the toast and form reset that follow
  its answer.
- `NewPayer` — the new-payer form: its schema, the duplicate-reference check
  and the payer and reference inserts inside a transaction.
- `AssignPayment` — the assign-payment modal: the two guarded lookups and
  the insert-then-delete move from `unallocated_payments` to `payments`.
- `Notifications` — the normalisation of fetched notifications, the unread
  count and badge, and the optimistic mark-as-read with its restore on error.

Helper modules: `Wrappers` (`Option`, `Result`), `Text` (split, join, decimal
numerals), `Js` (the JavaScript built-ins the code relies on: white space and
`trim`, `parseInt`, number to text, ASCII `toLowerCase`, UTF-16 length, and
`error instanceof Error ? error.message : fallback`), and `Tables` (the `Row`
shapes of lib/supabase/database.types.ts, the abstract database state
`Db`, and `.single()`).

Everything the code reaches outside itself is a parameter: date-fns
(`Parsers.parseDate`), `parseFloat` (`Parsers.parseFloat`), pdf-parse,
`TextDecoder`, csv-parse and `generateObject` (`Extractor`), Supabase auth,
storage and database (`Backend`, `NewPayerEnv`, `AssignEnv`), the clock (a
`now` string) and the e-mail syntax check of zod (`isEmail`). Each is a
total function or a flag, so every outcome an oracle can produce —
including every failure — is covered by the proofs.

## Model

| member | source | states |
|---|---|---|
| BankCsvParser.ParseBankCsv | lib/parsers/bank-csv-parser.ts:51-110 | the loop computes the reference result `ParseRows`; `invalidCount` equals the number of errors, `totalRows` the number of transactions, and every transaction is a credit |
| BankCsvParser.ScanRows | lib/parsers/bank-csv-parser.ts:61-93 | the `forEach` collects exactly the parsed rows and the invalid-amount messages in row order, and `invalidCount` equals the number of messages |
| BankCsvParser.GatherSelection | lib/parsers/bank-csv-parser.ts:65-93 | what the row loop keeps is an order-preserving selection: strictly increasing row positions, each contributing its own value, and no contributing row missed |
| BankCsvParser.KeepCredits | lib/parsers/bank-csv-parser.ts:95-98 | keeps exactly the transactions with a positive amount, in order |
| BankCsvParser.ParseRows | lib/parsers/bank-csv-parser.ts:65-105 | the counters always agree with the lists they count |
| BankCsvParser.ClassifyRow | lib/parsers/bank-csv-parser.ts:65-92 | a row with fewer than 3 cells or no recognisable date is skipped; an unparseable amount yields the 1-based "Invalid amount" message; otherwise the transaction has the normalised date, the description cell unchanged and the parsed amount |
| BankCsvParser.RowStep | lib/parsers/bank-csv-parser.ts:65-93 | appending one row extends transactions, errors and the count exactly as that row's verdict says |
| BankCsvParser.CreditsSelectRows | lib/parsers/bank-csv-parser.ts:65-98 | the transactions come from strictly increasing row positions, each a dated row with a positive amount, and every such row contributes one |
| BankCsvParser.ErrorsNameInvalidRows | lib/parsers/bank-csv-parser.ts:81-84 | each error names, in order, one dated row whose amount does not parse, with its 1-based index, and every such row is named |
| BankCsvParser.OnlyCredits | lib/parsers/bank-csv-parser.ts:96-98 | every returned amount is positive |
| BankCsvParser.PositiveParsedAreCredits | lib/parsers/bank-csv-parser.ts:88-98 | filtering the parsed rows for positive amounts is the same as keeping credit rows one by one, so debit and zero rows never touch errors or counts |
| BankCsvParser.SkippedRowChangesNothing | lib/parsers/bank-csv-parser.ts:66-76 | inserting a short or undated row leaves transactions and counts unchanged and only renumbers later error messages |
| BankCsvParser.HeaderRowIsIgnored | lib/parsers/bank-csv-parser.ts:71-76 | a header row leaves transactions, totalRows and invalidCount as without it; error messages count the header row |
| BankCsvParser.NumberingOnlyAffectsMessages | lib/parsers/bank-csv-parser.ts:83 | the starting row number changes neither the credits nor the number of errors |
| BankCsvParser.ClassifyIgnoresIndex | lib/parsers/bank-csv-parser.ts:65-92 | a row's verdict depends on its position only through the error message |
| BankCsvParser.SalaryDepositPaymentScenario | tests/bankCSVParser.test.ts:27-43 | the salary, deposit and payment rows give the two credits, no invalid rows, totalRows 2 and no errors |
| BankCsvParser.RemoveCommasIdempotent | lib/parsers/bank-csv-parser.ts:25 | removing commas twice is removing them once |
| BankCsvParser.RemoveCommasFixesCommaFree | lib/parsers/bank-csv-parser.ts:25 | a comma-free amount is passed to `parseFloat` unchanged |
| BankCsvParser.ParseAmountIgnoresCommas | lib/parsers/bank-csv-parser.ts:24-28 | an amount and the same amount with its commas removed parse alike |
| BankCsvParser.FirstMatch | lib/parsers/bank-csv-parser.ts:41-48 | the search answers the first format, in list order, that accepts the text, or none when no format does |
| BankCsvParser.ParseAndValidateDate | lib/parsers/bank-csv-parser.ts:31-49 | there is no date exactly when no format accepts the trimmed cell; otherwise the answer is the first accepting format's date written `yyyy-MM-dd` |
| BankCsvParser.FirstFormatAccepts | lib/parsers/bank-csv-parser.ts:32-44 | when `ddMMMyyyy` accepts the trimmed cell its date is the answer, whatever later formats say |
| BankCsvParser.NormalisesDayMonthAbbrYear | lib/parsers/bank-csv-parser.ts:32-44 | `09Sep2024` becomes `2024-09-09` |
| BankCsvParser.IsoDateRoundTrip | lib/parsers/bank-csv-parser.ts:44 | a `yyyy-MM-dd` text is ten characters long and reads back as the date it was made from |
| BankCsvParser.PlainRowParses | lib/parsers/bank-csv-parser.ts:71-92 | a row with a plain first-format date and a comma-free amount yields its transaction |
| AiParser.DispatchIgnoresCase | lib/parsers/ai-parser.ts:10 | names equal up to ASCII case, such as `X.CSV` and `x.csv`, take the same branch |
| AiParser.SplitLowerCommute | lib/parsers/ai-parser.ts:10 | lower-casing before or after splitting at dots gives the same parts |
| AiParser.ParseFile | lib/parsers/ai-parser.ts:8-33 | an unsupported type throws "Unsupported file type"; a success holds only positive amounts; each supported path hands the extracted text to the extractor, and a failure of pdf-parse or csv-parse reaches the caller unchanged |
| AiParser.UnsupportedNeverExtracts | lib/parsers/ai-parser.ts:16-18 | for an unsupported type the outcome does not depend on any extractor |
| AiParser.ExtractTransactions | lib/parsers/ai-parser.ts:35-64 | the extraction succeeds exactly when the model answers and every amount is positive, and then returns that answer unchanged |
| AiParser.FlattenRecordsLines | lib/parsers/ai-parser.ts:26-31 | the text has one line per record, in order, each the record's values joined by `", "` |
| ProcessBankStatement.ProcessStatement | app/actions/process-bank-statement.ts:7-132 | missing fields and a missing user end the run before anything is stored; a success records one statement with the decoded flag, organisation, user and file type; payments exist only when processing was asked for and then map the extracted transactions one to one |
| ProcessBankStatement.ReplaceOutside | app/actions/process-bank-statement.ts:39 | every character of the result is in the class or a hyphen, and the UTF-16 length is kept |
| ProcessBankStatement.SanitizePath | app/actions/process-bank-statement.ts:36-39 | every character of the path is an ASCII letter, digit, `_`, `.`, `/` or `-`, and the path is as long as the trimmed text in UTF-16 units |
| ProcessBankStatement.ReplaceOutsidePositions | app/actions/process-bank-statement.ts:39 | within the Basic Multilingual Plane each character is kept when in the class and replaced by `-` otherwise, position by position |
| ProcessBankStatement.ReplaceOutsideFixes | app/actions/process-bank-statement.ts:39 | text already made of allowed characters and hyphens is left alone |
| ProcessBankStatement.SanitizePathIdempotent | app/actions/process-bank-statement.ts:36-39 | sanitising twice is sanitising once |
| ProcessBankStatement.HyphenReadingIrrelevant | app/actions/process-bank-statement.ts:39 | reading `.-\/` as a range or with a literal hyphen gives the same path |
| ProcessBankStatement.UploadErrorMessageInjective | app/actions/process-bank-statement.ts:56-61 | different storage errors give different messages |
| ProcessBankStatement.UploadFailureReported | app/actions/process-bank-statement.ts:56-61 | a failed upload stores nothing and is answered with its mapped message, "File already exists" for an existing resource |
| ProcessBankStatement.ProcessingFailureKeepsStatement | app/actions/process-bank-statement.ts:93-131 | a parse failure after the statement insert is reported while the stored file and the processed statement row stay and no payment is written |
| ProcessBankStatement.UnprocessedUploadSucceeds | app/actions/process-bank-statement.ts:63-122 | without processing, once the file is stored, has a public URL and the statement insert returns its id, the action succeeds with exactly that statement row, keeps the file and writes no payments |
| ProcessBankStatement.ProcessedUploadSucceeds | app/actions/process-bank-statement.ts:63-122 | with processing, a stored statement, a parsed file and an error-free payments insert make the action succeed with the statement row and one payment per extracted transaction |
| ProcessBankStatement.MissingPublicUrlReported | app/actions/process-bank-statement.ts:63-72 | a stored file without a public URL answers "Error getting public URL", keeps the file and writes no statement |
| ProcessBankStatement.RecordInsertFailureReported | app/actions/process-bank-statement.ts:74-90 | a rejected statement insert answers "Error inserting record: " with the database's message and keeps the file |
| ProcessBankStatement.PaymentsInsertFailureKeepsStatement | app/actions/process-bank-statement.ts:93-116 | a rejected payments insert answers "Error inserting payments: " with the database's message; the file and the statement row stay and no payment is written |
| ProcessBankStatement.PaymentRowsFor | app/actions/process-bank-statement.ts:102-111 | one payment per transaction, copying amount, date and reference, pointing at the statement and the organisation |
| FileUpload.StemAndExtensionRebuildName | components/fileUpload.tsx:66 | the stem and the server's extension rebuild the name exactly when it has a dot; without a dot the stem is empty |
| FileUpload.OnDrop | components/fileUpload.tsx:62-72 | the first accepted file and its stem fill the form; an empty drop changes nothing |
| FileUpload.Submit | components/fileUpload.tsx:82-108 | a name shorter than one code unit is rejected; no file sends nothing and says "Please select a file first"; otherwise the entries carry the file and name; success, with the dialog reset, exactly when the action answers without a non-empty error; a non-empty error is shown and keeps the form; a rejected call shows "An error occurred while processing the file" |
| FileUpload.SubmitFollowsAnswer | components/fileUpload.tsx:96-103 | an answer with an empty error message counts as success like a successful one; a non-empty one is shown as it is |
| FileUpload.SubmitReportsServerAnswer | components/fileUpload.tsx:96-103 | the dialog reports success exactly when `processBankStatement` succeeds or fails with an empty message, and otherwise shows the server's message |
| FileUpload.BoolTextRoundTrip | components/fileUpload.tsx:94 | the server decodes the flag the form held |
| FileUpload.SentEntriesDecode | components/fileUpload.tsx:88-94 | entries from a signed-in user with an e-mail and a safe organisation id pass the server's field check and decode to the form's organisation and flag |
| FileUpload.NoUserNoUpload | components/fileUpload.tsx:92-93 | without a user id or e-mail the server answers "Missing required fields" and stores nothing |
| FileUpload.DropThenSubmit | components/fileUpload.tsx:62-94 | dropping a named file and submitting sends that file with a name that, with the extension, rebuilds the original |
| NewPayer.CreatePayer | components/new-payer-form.tsx:50-110 | a duplicate reference is refused with "This reference is already assigned to a payer"; any failure leaves every table unchanged; a success adds the payer and, when a reference is given, one reference row naming the payer and the organisation, and touches nothing else |
| NewPayer.EffectiveReference | components/new-payer-form.tsx:52-56 | the URL reference wins when non-empty; a reference is given exactly when either is non-empty |
| NewPayer.SubmitKeepsPayersValid | components/new-payer-form.tsx:21-27 | values the schema rejects reach no table, and every payer the form creates keeps the payers table within the schema: names of 2 to 50 code units and a valid e-mail |
| NewPayer.Matching | components/new-payer-form.tsx:53-57 | the selected rows hold the reference in the organisation, and none is selected exactly when no row does |
| NewPayer.MatchingSelectsAll | components/new-payer-form.tsx:53-58 | every row holding the reference in the organisation is selected as often as it occurs and no other row, so `.single()` sees the true number of duplicates |
| NewPayer.UniqueMatchesAtMostOne | components/new-payer-form.tsx:58-62 | when references are unique the check sees at most one row |
| NewPayer.CreatePayerKeepsReferencesUnique | components/new-payer-form.tsx:52-91 | if each non-null reference occurs once per organisation before, it does after |
| NewPayer.FailedPrecheckAdmitsDuplicate | components/new-payer-form.tsx:53-62 | when the duplicate query errors, a second row with the same reference gets in |
| AssignPayment.Move | components/assign-payement-modal.tsx:55-113 | a failed guard writes nothing; references and payers are never touched; payments gain exactly the copied row or nothing; the unallocated row is removed only on full success |
| AssignPayment.AssignPayment | components/assign-payement-modal.tsx:84-91 | the corrected move records the payer and the organisation on the new payment |
| AssignPayment.AssignPaymentAsWritten | components/assign-payement-modal.tsx:84-91 | the move as written leaves the new payment without a payer |
| AssignPayment.PayerReferencesSelectsAll | components/assign-payement-modal.tsx:58-64 | the first lookup selects every row of the reference, organisation and payer, as often as it occurs, and no other |
| AssignPayment.UnallocatedForSelectsAll | components/assign-payement-modal.tsx:72-77 | the second lookup selects every unallocated payment of the reference and organisation, as often as it occurs, and no other |
| AssignPayment.RemoveById | components/assign-payement-modal.tsx:95-102 | rows with the identifier go and every other row stays |
| AssignPayment.FailedDeleteDuplicatesAmount | components/assign-payement-modal.tsx:84-112 | whatever `payer_id` the insert carries, as written or corrected, a failed delete leaves the payment in both tables, says "Failed to assign payment" and does not call `onAssigned` |
| AssignPayment.AssignmentConservesTotal | components/assign-payement-modal.tsx:84-104 | whatever `payer_id` the insert carries, as written or corrected, a completed move keeps the sum of amounts over both tables |
| AssignPayment.RemoveUniqueRowTotal | components/assign-payement-modal.tsx:95-102 | deleting a row with a unique identifier takes exactly its amount |
| AssignPayment.PayerOfFindsPayer | components/payments-table.tsx:48-63 | a payment carrying a payer's id joins that payer |
| AssignPayment.AsWrittenAssignmentShowsUnknown | components/payments-table.tsx:85-90 | as written, an assigned payment's Payer cell reads "Unknown" |
| AssignPayment.AssignedPaymentShowsPayer | components/payments-table.tsx:85-98 | with the payer recorded, an assigned payment joins the payer it was assigned to |
| Notifications.Normalize | components/notifications-dropdown-wrapper.tsx:14-18 | no query result gives `[]`; otherwise one entry per row, in order, each the row normalised |
| Notifications.NormalizeOne | components/notifications-dropdown-wrapper.tsx:15-17 | `read` is true exactly when stored true; falsy `data` becomes `{}` and other data is kept; every other field is kept |
| Notifications.NormalizedUnreadCount | components/notifications-dropdown-wrapper.tsx:14-18 | after normalisation the unread count is the number of rows stored as unread or null |
| Notifications.UnreadCount | components/notifications-dropdown.tsx:169-171 | the count is zero exactly when every entry is read |
| Notifications.Badge | components/notifications-dropdown.tsx:183-187 | the badge shows exactly when some entry offers a "Read" button, and then shows the positive unread count |
| Notifications.MarkRead | components/notifications-dropdown.tsx:78-86 | entries with the id become read, all others, the length and the order are kept, and an absent cache gives `[]` |
| Notifications.MarkReadIdempotent | components/notifications-dropdown.tsx:80-85 | marking twice is marking once |
| Notifications.MarkReadCount | components/notifications-dropdown.tsx:80-85 | marking lowers the unread count by the unread entries with that id, never raising it |
| Notifications.MarkAsRead | components/notifications-dropdown.tsx:71-96 | a success leaves the optimistic list; a failure restores the snapshot, or leaves `[]` when there was none |
| Notifications.FailedMarkShowsSnapshot | components/notifications-dropdown.tsx:89-96 | with data loaded, a failed request shows the list and count from before the click |
| Notifications.FailedMarkBeforeLoadEmptiesList | components/notifications-dropdown.tsx:78-96 | with no data loaded, a failed request leaves an empty list in place of the server-rendered one |
| Js.ParseIntOfIntToString | app/actions/process-bank-statement.ts:11 | `parseInt` reads back every safe integer written by `toString` |
| Js.TrimStart | app/actions/process-bank-statement.ts:38 | only leading white space is removed |
| Js.ToLowerAscii | lib/parsers/ai-parser.ts:10 | each ASCII letter is lower-cased in place and every other character kept |
| Text.Split | lib/parsers/ai-parser.ts:10 | the parts are separator-free and join back to the text |
| Text.SplitJoin | components/fileUpload.tsx:66 | splitting joined separator-free parts gives the parts back |
| Text.LastSegmentSplits | app/actions/process-bank-statement.ts:35 | with a separator, the text before it, the separator and the last part make the text; without, the last part is the whole text |
| Text.NatToStringValue | lib/parsers/bank-csv-parser.ts:83 | the decimal numeral reads back as its number |
| Text.PadNatValue | lib/parsers/bank-csv-parser.ts:44 | zero padding does not change the value of a numeral |

## Left out

- Reading the CSV file and papaparse's delimiter detection: `ParseBankCsv` takes the rows papaparse produces, with empty lines already removed.
- date-fns parsing and `parseFloat` are oracles (`Parsers`); the model does not decide which texts a format accepts or which decimal a text denotes, and amounts are exact reals rather than IEEE doubles.
- pdf-parse, `TextDecoder`, csv-parse with `columns: true` and the `generateObject` call are oracles (`Extractor`); `AiParser.FlattenRecordsLines` takes each record's values in column order, which is the order of `Object.values` except for integer-like or repeated header names.
- The prompt text given to the model is not modelled; the extraction oracle receives the flattened content directly.
- Supabase auth, storage, the database and `getPublicUrl` are oracles; thrown network errors, `file.arrayBuffer()`, upload metadata, `revalidatePath` and the dashboard navigation are not modelled.
- Column defaults filled by the database (`created_at`, `updated_at` of new references and payments) are not modelled; the new rows leave them absent or take the `now` parameter.
- NewPayer.CreatePayer: the `begin_transaction`, `commit_transaction` and `rollback_transaction` calls are taken to form one transaction around the two inserts; whether separate requests really share a transaction is outside the model, and their own errors are ignored as the code ignores them.
- NewPayer.CreatePayer: the payer insert spreads every form value, `reference` included, into `payers`; whether the database accepts that object is decided by the `payerInsertError` oracle.
- ProcessBankStatement.ProcessStatement: each payment object carries `created_by`, the id from the second `getUser`, although the `payments` table of lib/supabase/database.types.ts has no such column; whether the database accepts the object is decided by the `insertPayments` oracle, so the model neither assumes the insert always succeeds nor that it always fails.
- Concurrency: each operation runs alone, so the race between the duplicate check and the insert is not modelled.
- Js.ToLowerAscii: lowers ASCII letters only; the only non-ASCII characters whose lower case contains an ASCII letter are U+0130 and U+212A, which cannot make an extension equal to `pdf` or `csv`, so the dispatch is unaffected.
- The zod e-mail syntax is an oracle (`isEmail`); zod's per-field messages are not modelled.
- Notifications: fetching, the mark-as-read API routes, the refetch that `onSettled` triggers, `formatDistanceToNow` and the disabled state of the button while a request is pending are not modelled.
- The rendering of the upload dialog, including the sign-in link shown without a user, is not modelled; `FileUpload.Submit` takes the user the component holds.
- Js.IntToString: numbers are unbounded integers. A JavaScript number is a double, which prints rounded beyond 2^53 and in exponent form from 1e21 on, so the `parseInt` round trip is proved for safe integers only (`Js.SafeInteger`); identifiers stay in that range.
- The payer search query of the assign-payment modal and every other rendering component are left out; only the payments table's Payer cell is modelled, to show the finding below.
- lib/notifications.ts, PayerAssignmentCard, the organizations pages and the API routes are not part of this model.

## Findings

| source | as written | input that shows it | evidently intended | confidence | as-written member | corrected member |
|---|---|---|---|---|---|---|
| components/assign-payement-modal.tsx:84-91 | the payment inserted for an assigned deposit sets no `payer_id` | any assignment whose lookups, insert and delete succeed; the payments table joins the payer through `payments_payer_id_fkey` (components/payments-table.tsx:53) and shows "Unknown" (components/payments-table.tsx:90) | the payment records the payer it was assigned to | not executed | AssignPayment.AsWrittenAssignmentShowsUnknown | AssignPayment.AssignedPaymentShowsPayer |

=== FILE: ai_parser.dfy ===
/**
  The file parser of lib/parsers/ai-parser.ts: the file type is the
  lower-cased text after the last `.` of the file name; PDFs are reduced to
  their text, CSVs to one line per record, and either text is handed to the
  generative extraction service, whose answer must satisfy a fixed schema.

  PDF text extraction, UTF-8 decoding, CSV record parsing and the model call
  are oracles (`Extractor`); dispatch, flattening and the schema check on
  amounts are modelled exactly.
*/
module AiParser {
  import opened Wrappers
  import opened Text
  import opened Js

  /** A browser `File`: its name, its declared MIME type (`file.type`) and its content. */
  datatype UploadedFile = UploadedFile(name: string, mimeType: string, bytes: seq<bv8>)

  /** One transaction in the extraction service's answer. */
  datatype ExtractedTransaction = ExtractedTransaction(date: string, reference: string, amount: real)

  /** The extraction service's answer: `{ transactions: [...] }`. */
  datatype Extraction = Extraction(transactions: seq<ExtractedTransaction>)

  /**
    The foreign calls: `pdfText` is pdf-parse's `text`; `decodeUtf8` is
    `TextDecoder.decode`; `csvRecords` is csv-parse with `columns: true` and
    `skip_empty_lines: true` (the first line names the columns and is not a
    record; each record is given as `Object.values(record)`); `generate` is
    the model's answer to the extraction prompt built around the given text,
    before the schema is checked. Any of them may throw.
  */
  datatype Extractor = Extractor(
    pdfText: seq<bv8> -> Result<string, Thrown>,
    decodeUtf8: seq<bv8> -> string,
    csvRecords: string -> Result<seq<seq<string>>, Thrown>,
    generate: string -> Result<seq<ExtractedTransaction>, Thrown>)

  /** The two kinds of statement file the parser handles. */
  datatype FileKind = Pdf | Csv

  /** `file.name.split(".").pop()?.toLowerCase()`. */
  function FileTypeOf(name: string): string {
    ToLowerAscii(LastSegment(name, '.'))
  }

  /** Which branch of `parseFile` a file name takes; `None` for an unsupported type. */
  function Dispatch(name: string): (k: Option<FileKind>)
    ensures k == Some(Pdf) <==> FileTypeOf(name) == "pdf"
    ensures k == Some(Csv) <==> FileTypeOf(name) == "csv"
    ensures k == None <==> FileTypeOf(name) != "pdf" && FileTypeOf(name) != "csv"
  {
    var t := FileTypeOf(name);
    if t == "pdf" then Some(Pdf)
    else if t == "csv" then Some(Csv)
    else None
  }

  /** Lower-casing and cutting at `.` commute, since `.` is not a letter. */
  lemma {:induction false} SplitLowerCommute(s: string)
    ensures |Split(ToLowerAscii(s), '.')| == |Split(s, '.')|
    ensures forall k :: 0 <= k < |Split(s, '.')| ==> Split(ToLowerAscii(s), '.')[k] == ToLowerAscii(Split(s, '.')[k])
    decreases |s|
  {
    if |s| > 0 {
      SplitLowerCommute(s[1..]);
      assert ToLowerAscii(s)[1..] == ToLowerAscii(s[1..]);
      var rest := Split(s[1..], '.');
      if s[0] != '.' {
        assert ToLowerAscii([s[0]] + rest[0]) == [LowerAscii(s[0])] + ToLowerAscii(rest[0]);
      }
    }
  }

  /** The file type is the last part of the lower-cased name. */
  lemma FileTypeOfLowered(s: string)
    ensures FileTypeOf(s) == LastSegment(ToLowerAscii(s), '.')
  {
    var parts := Split(s, '.');
    var lowered := Split(ToLowerAscii(s), '.');
    var n := |parts| - 1;
    assert |lowered| - 1 == n && lowered[n] == ToLowerAscii(parts[n]) by {
      SplitLowerCommute(s);
    }
  }

  /** The branch taken depends on the name only up to letter case: `X.CSV` goes where `x.csv` goes. */
  lemma DispatchIgnoresCase(a: string, b: string)
    requires ToLowerAscii(a) == ToLowerAscii(b)
    ensures Dispatch(a) == Dispatch(b)
  {
    FileTypeOfLowered(a);
    FileTypeOfLowered(b);
  }

  /** The message `parseFile` throws for any other file type. */
  const UnsupportedFileType := "Unsupported file type"

  /**
    What the AI SDK throws when the model's answer does not satisfy the
    schema (here: an amount that is not positive).
  */
  const SchemaMismatch := "No object generated: response did not match schema."

  /** True when every amount is positive, as `z.number().positive()` demands. */
  predicate AllPositive(txs: seq<ExtractedTransaction>) {
    forall k :: 0 <= k < |txs| ==> txs[k].amount > 0.0
  }

  /**
    `extractTransactionsWithAI`: the model's answer, accepted only when it
    satisfies the schema; otherwise, or when the call fails, it throws.
  */
  function ExtractTransactions(content: string, x: Extractor): (r: Result<Extraction, Thrown>)
    ensures r.Success? <==> x.generate(content).Success? && AllPositive(x.generate(content).value)
    ensures r.Success? ==> r.value.transactions == x.generate(content).value
    ensures x.generate(content).Failure? ==> r == Failure(x.generate(content).error)
  {
    match x.generate(content)
    case Failure(t) => Failure(t)
    case Success(txs) =>
      if AllPositive(txs) then Success(Extraction(txs))
      else Failure(ErrorObject(SchemaMismatch))
  }

  /** One CSV record as a line: its values, in order, joined by `", "`. */
  function RecordLine(values: seq<string>): string {
    Join(values, ", ")
  }

  /** `records.map((record) => Object.values(record).join(", ")).join("\n")`. */
  function FlattenRecords(records: seq<seq<string>>): string {
    Join(seq(|records|, k requires 0 <= k < |records| => RecordLine(records[k])), "\n")
  }

  /**
    The flattened text has one line per record, in record order, and each
    line is that record's values joined by `", "` in column order, provided
    no value itself contains a line break.
  */
  lemma FlattenRecordsLines(records: seq<seq<string>>)
    requires |records| >= 1
    requires forall k, j :: 0 <= k < |records| && 0 <= j < |records[k]| ==> '\n' !in records[k][j]
    ensures |Split(FlattenRecords(records), '\n')| == |records|
    ensures forall k :: 0 <= k < |records| ==> Split(FlattenRecords(records), '\n')[k] == Join(records[k], ", ")
  {
    var lines := seq(|records|, k requires 0 <= k < |records| => RecordLine(records[k]));
    forall k | 0 <= k < |lines|
      ensures '\n' !in lines[k]
    {
      JoinAvoids(records[k], ", ", '\n');
    }
    SplitJoin(lines, '\n');
  }

  /**
    `parseFile`: dispatch on the file type, reduce the file to text and
    extract. Whatever it returns satisfies the schema: every amount is
    positive. An unsupported type throws before any foreign call, and a
    failure of the PDF or CSV reader propagates as it was thrown.
  */
  function ParseFile(file: UploadedFile, x: Extractor): (r: Result<Extraction, Thrown>)
    ensures Dispatch(file.name).None? ==> r == Failure(ErrorObject(UnsupportedFileType))
    ensures r.Success? ==> AllPositive(r.value.transactions)
    ensures Dispatch(file.name) == Some(Pdf) && x.pdfText(file.bytes).Success? ==>
              r == ExtractTransactions(x.pdfText(file.bytes).value, x)
    ensures Dispatch(file.name) == Some(Csv) && x.csvRecords(x.decodeUtf8(file.bytes)).Success? ==>
              r == ExtractTransactions(FlattenRecords(x.csvRecords(x.decodeUtf8(file.bytes)).value), x)
    // a failure of pdf-parse or csv-parse reaches the caller unchanged
    ensures Dispatch(file.name) == Some(Pdf) && x.pdfText(file.bytes).Failure? ==>
              r == Failure(x.pdfText(file.bytes).error)
    ensures Dispatch(file.name) == Some(Csv) && x.csvRecords(x.decodeUtf8(file.bytes)).Failure? ==>
              r == Failure(x.csvRecords(x.decodeUtf8(file.bytes)).error)
  {
    match Dispatch(file.name)
    case None => Failure(ErrorObject(UnsupportedFileType))
    case Some(Pdf) =>
      (match x.pdfText(file.bytes)
       case Failure(t) => Failure(t)
       case Success(text) => ExtractTransactions(text, x))
    case Some(Csv) =>
      (match x.csvRecords(x.decodeUtf8(file.bytes))
       case Failure(t) => Failure(t)
       case Success(records) => ExtractTransactions(FlattenRecords(records), x))
  }

  /** An unsupported file is rejected the same way whatever the foreign services would do: they are never reached. */
  lemma UnsupportedNeverExtracts(file: UploadedFile, x1: Extractor, x2: Extractor)
    requires FileTypeOf(file.name) != "pdf" && FileTypeOf(file.name) != "csv"
    ensures ParseFile(file, x1) == ParseFile(file, x2) == Failure(ErrorObject(UnsupportedFileType))
  {
  }
}

=== FILE: assign_payment.dfy ===
/**
  `assignPayment` of components/assign-payement-modal.tsx: after checking
  that the chosen payer holds the deposit's reference and that exactly one
  unallocated payment carries it, the payment is copied into `payments` and
  then deleted from `unallocated_payments`. The two writes are separate and
  nothing is undone when the second fails.

  The row the modal inserts sets no `payer_id`, so the payments table, which
  joins the payer through `payments_payer_id_fkey`, shows the assigned
  payment under "Unknown" (components/payments-table.tsx). `AssignPaymentAsWritten`
  models the modal as it is; `AssignPayment` records the payer.
*/
module AssignPayment {
  import opened Wrappers
  import opened Tables

  /**
    What the database does during one run: whether either lookup errors, and
    whether the insert or the delete is rejected; the identifier and the
    timestamp given to the new payment.
  */
  datatype AssignEnv = AssignEnv(
    referenceQueryFails: bool,
    unallocatedQueryFails: bool,
    insertFails: bool,
    deleteFails: bool,
    newPaymentId: int,
    now: string)

  /** The toast shown, whether `onAssigned` ran (and the dialog closed), and the database after the run. */
  datatype AssignResult = AssignResult(message: string, onAssigned: bool, db: Db)

  const NotAssociated := "This reference is not associated with the selected payer"
  const FetchFailed := "Failed to fetch unallocated payment"
  const AssignFailed := "Failed to assign payment"
  const Assigned := "Payment assigned successfully"
  const UnknownPayer := "Unknown"

  // ---------------------------------------------------------------------------
  // Lookups

  /** The references rows the first lookup selects: this reference, organization and payer. */
  function PayerReferences(refs: seq<ReferenceRow>, reference: string, org: int, payerId: string): (m: seq<ReferenceRow>)
    ensures forall k :: 0 <= k < |m| ==>
              m[k] in refs && m[k].referenceDetails == Some(reference) && m[k].organizationId == org && m[k].payerId == payerId
  {
    if |refs| == 0 then []
    else
      var rest := PayerReferences(refs[1..], reference, org, payerId);
      var row := refs[0];
      if HeldBy(row, reference, org, payerId) then [row] + rest else rest
  }

  /** Whether a reference row is this reference, in this organization, of this payer. */
  predicate HeldBy(row: ReferenceRow, reference: string, org: int, payerId: string) {
    row.referenceDetails == Some(reference) && row.organizationId == org && row.payerId == payerId
  }

  /** The unallocated payments the second lookup selects: this transaction reference and organization. */
  function UnallocatedFor(rows: seq<UnallocatedPaymentRow>, reference: string, org: int): (m: seq<UnallocatedPaymentRow>)
    ensures forall k :: 0 <= k < |m| ==>
              m[k] in rows && m[k].transactionReference == reference && m[k].organizationId == org
  {
    if |rows| == 0 then []
    else
      var rest := UnallocatedFor(rows[1..], reference, org);
      if Carries(rows[0], reference, org) then [rows[0]] + rest else rest
  }

  /** Whether an unallocated payment carries this transaction reference in this organization. */
  predicate Carries(row: UnallocatedPaymentRow, reference: string, org: int) {
    row.transactionReference == reference && row.organizationId == org
  }

  /** The first lookup selects every row of this reference, organization and payer, as often as it occurs, and no other. */
  lemma {:induction false} PayerReferencesSelectsAll(refs: seq<ReferenceRow>, reference: string, org: int, payerId: string)
    ensures forall x :: multiset(PayerReferences(refs, reference, org, payerId))[x]
                        == if HeldBy(x, reference, org, payerId) then multiset(refs)[x] else 0
    decreases |refs|
  {
    if |refs| > 0 {
      PayerReferencesSelectsAll(refs[1..], reference, org, payerId);
      assert refs == [refs[0]] + refs[1..];
    }
  }

  /** The second lookup selects every payment of this reference and organization, as often as it occurs, and no other. */
  lemma {:induction false} UnallocatedForSelectsAll(rows: seq<UnallocatedPaymentRow>, reference: string, org: int)
    ensures forall x :: multiset(UnallocatedFor(rows, reference, org))[x]
                        == if Carries(x, reference, org) then multiset(rows)[x] else 0
    decreases |rows|
  {
    if |rows| > 0 {
      UnallocatedForSelectsAll(rows[1..], reference, org);
      assert rows == [rows[0]] + rows[1..];
    }
  }

  /** `.delete().eq("unallocated_payment_id", id)`: every row with that identifier goes, every other row stays in order. */
  function RemoveById(rows: seq<UnallocatedPaymentRow>, id: int): (r: seq<UnallocatedPaymentRow>)
    ensures forall k :: 0 <= k < |r| ==> r[k] in rows && r[k].unallocatedPaymentId != id
    ensures forall row :: row in rows && row.unallocatedPaymentId != id ==> row in r
  {
    if |rows| == 0 then []
    else
      var rest := RemoveById(rows[1..], id);
      assert forall row :: row in rows[1..] ==> row in rows;
      assert forall row :: row in rows ==> row == rows[0] || row in rows[1..];
      if rows[0].unallocatedPaymentId == id then rest else [rows[0]] + rest
  }

  /** The payment row the modal writes for an unallocated payment. */
  function PaymentFrom(u: UnallocatedPaymentRow, org: int, payerId: Option<string>, env: AssignEnv): PaymentRow {
    PaymentRow(u.amount, u.bankStatementId, Some(env.now), u.date, Some(org), payerId,
               env.newPaymentId, None, u.transactionReference, None)
  }

  // ---------------------------------------------------------------------------
  // The move

  /** Both lookups found exactly one row. */
  predicate LookupsSucceed(db: Db, reference: string, org: int, payer: PayerRow, env: AssignEnv) {
    && !env.referenceQueryFails
    && Single(PayerReferences(db.references, reference, org, payer.userId)).Some?
    && !env.unallocatedQueryFails
    && Single(UnallocatedFor(db.unallocated, reference, org)).Some?
  }

  /** The unallocated payment being moved, once the lookups succeed. */
  function Moved(db: Db, reference: string, org: int, payer: PayerRow, env: AssignEnv): UnallocatedPaymentRow
    requires LookupsSucceed(db, reference, org, payer, env)
  {
    UnallocatedFor(db.unallocated, reference, org)[0]
  }

  /** The steps of `assignPayment`, with the `payer_id` the inserted row carries as a parameter. */
  function Move(db: Db, reference: string, org: int, payer: PayerRow, env: AssignEnv,
                payerId: Option<string>): (res: AssignResult)
    // a failed guard writes nothing
    ensures !LookupsSucceed(db, reference, org, payer, env) ==> res.db == db && !res.onAssigned
    ensures (env.referenceQueryFails || Single(PayerReferences(db.references, reference, org, payer.userId)).None?)
              ==> res == AssignResult(NotAssociated, false, db)
    ensures res.onAssigned <==> LookupsSucceed(db, reference, org, payer, env) && !env.insertFails && !env.deleteFails
    ensures res.onAssigned <==> res.message == Assigned
    // references and payers are never touched
    ensures res.db.references == db.references && res.db.payers == db.payers
    // the payments table gains exactly the copied row, or nothing
    ensures res.db.payments == db.payments
            || (&& LookupsSucceed(db, reference, org, payer, env) && !env.insertFails
                && res.db.payments == db.payments + [PaymentFrom(Moved(db, reference, org, payer, env), org, payerId, env)])
    // the unallocated row goes only on full success
    ensures res.onAssigned ==>
              && res.db.payments == db.payments + [PaymentFrom(Moved(db, reference, org, payer, env), org, payerId, env)]
              && res.db.unallocated == RemoveById(db.unallocated, Moved(db, reference, org, payer, env).unallocatedPaymentId)
    ensures !res.onAssigned ==> res.db.unallocated == db.unallocated
  {
    var refs := PayerReferences(db.references, reference, org, payer.userId);
    if env.referenceQueryFails || Single(refs).None? then AssignResult(NotAssociated, false, db)
    else
      var found := UnallocatedFor(db.unallocated, reference, org);
      if env.unallocatedQueryFails || Single(found).None? then AssignResult(FetchFailed, false, db)
      else
        var u := found[0];
        if env.insertFails then AssignResult(AssignFailed, false, db)
        else
          var inserted := db.(payments := db.payments + [PaymentFrom(u, org, payerId, env)]);
          if env.deleteFails then AssignResult(AssignFailed, false, inserted)
          else AssignResult(Assigned, true, inserted.(unallocated := RemoveById(db.unallocated, u.unallocatedPaymentId)))
  }

  /** `assignPayment` as written: the inserted payment has no `payer_id`. */
  function AssignPaymentAsWritten(db: Db, reference: string, org: int, payer: PayerRow, env: AssignEnv): (res: AssignResult)
    ensures res.onAssigned ==> |res.db.payments| == |db.payments| + 1 && res.db.payments[|db.payments|].payerId == None
  {
    Move(db, reference, org, payer, env, None)
  }

  /** `assignPayment` recording the payer the deposit was assigned to. */
  function AssignPayment(db: Db, reference: string, org: int, payer: PayerRow, env: AssignEnv): (res: AssignResult)
    ensures res.onAssigned ==>
              && |res.db.payments| == |db.payments| + 1
              && res.db.payments[|db.payments|].payerId == Some(payer.userId)
              && res.db.payments[|db.payments|].organizationId == Some(org)
  {
    Move(db, reference, org, payer, env, Some(payer.userId))
  }

  // ---------------------------------------------------------------------------
  // Properties of the move

  /**
    A failed delete leaves the amount in both tables and does not report the
    assignment, whatever `payer_id` the inserted row carries: as written or
    corrected.
  */
  lemma FailedDeleteDuplicatesAmount(db: Db, reference: string, org: int, payer: PayerRow, env: AssignEnv,
                                     payerId: Option<string>)
    requires LookupsSucceed(db, reference, org, payer, env) && !env.insertFails && env.deleteFails
    ensures var res := Move(db, reference, org, payer, env, payerId);
            var u := Moved(db, reference, org, payer, env);
            && !res.onAssigned && res.message == AssignFailed
            && u in res.db.unallocated
            && res.db.payments[|res.db.payments| - 1].amount == u.amount
  {
    assert Moved(db, reference, org, payer, env) in UnallocatedFor(db.unallocated, reference, org);
  }

  /** Sum of the amounts of payments. */
  function PaymentsTotal(rows: seq<PaymentRow>): real {
    if |rows| == 0 then 0.0 else PaymentsTotal(rows[..|rows| - 1]) + rows[|rows| - 1].amount
  }

  /** Sum of the amounts of unallocated payments. */
  function UnallocatedTotal(rows: seq<UnallocatedPaymentRow>): real {
    if |rows| == 0 then 0.0 else rows[0].amount + UnallocatedTotal(rows[1..])
  }

  /** Unallocated payment identifiers are distinct (they are the table's primary key). */
  predicate UnallocatedIdsUnique(rows: seq<UnallocatedPaymentRow>) {
    forall i, j :: 0 <= i < j < |rows| ==> rows[i].unallocatedPaymentId != rows[j].unallocatedPaymentId
  }

  /** Removing the row with a unique identifier takes exactly its amount from the total. */
  lemma {:induction false} RemoveUniqueRowTotal(rows: seq<UnallocatedPaymentRow>, u: UnallocatedPaymentRow)
    requires UnallocatedIdsUnique(rows) && u in rows
    ensures UnallocatedTotal(RemoveById(rows, u.unallocatedPaymentId)) == UnallocatedTotal(rows) - u.amount
    decreases |rows|
  {
    var rest := rows[1..];
    assert UnallocatedIdsUnique(rest) by {
      forall i, j | 0 <= i < j < |rest|
        ensures rest[i].unallocatedPaymentId != rest[j].unallocatedPaymentId
      {
        assert rest[i] == rows[i + 1] && rest[j] == rows[j + 1];
      }
    }
    if rows[0] == u {
      forall k | 0 <= k < |rest|
        ensures rest[k].unallocatedPaymentId != u.unallocatedPaymentId
      {
        assert rest[k] == rows[k + 1];
      }
      RemoveAbsentIdKeepsRows(rest, u.unallocatedPaymentId);
    } else {
      assert u in rest;
      RemoveUniqueRowTotal(rest, u);
    }
  }

  /** Deleting an identifier no row has changes nothing. */
  lemma {:induction false} RemoveAbsentIdKeepsRows(rows: seq<UnallocatedPaymentRow>, id: int)
    requires forall k :: 0 <= k < |rows| ==> rows[k].unallocatedPaymentId != id
    ensures RemoveById(rows, id) == rows
    decreases |rows|
  {
    if |rows| > 0 {
      var rest := rows[1..];
      assert forall k :: 0 <= k < |rest| ==> rest[k] == rows[k + 1];
      RemoveAbsentIdKeepsRows(rest, id);
      assert rows[0].unallocatedPaymentId != id;
      assert RemoveById(rows, id) == [rows[0]] + RemoveById(rest, id);
      assert rows == [rows[0]] + rest;
    }
  }

  /**
    A completed assignment moves money between the tables without creating
    or losing any: the sum over both tables is unchanged, whatever `payer_id`
    the inserted row carries.
  */
  lemma AssignmentConservesTotal(db: Db, reference: string, org: int, payer: PayerRow, env: AssignEnv,
                                 payerId: Option<string>)
    requires UnallocatedIdsUnique(db.unallocated)
    requires Move(db, reference, org, payer, env, payerId).onAssigned
    ensures var after := Move(db, reference, org, payer, env, payerId).db;
            PaymentsTotal(after.payments) + UnallocatedTotal(after.unallocated)
            == PaymentsTotal(db.payments) + UnallocatedTotal(db.unallocated)
  {
    var after := Move(db, reference, org, payer, env, payerId).db;
    var u := Moved(db, reference, org, payer, env);
    assert u in UnallocatedFor(db.unallocated, reference, org);
    RemoveUniqueRowTotal(db.unallocated, u);
    assert after.payments[..|after.payments| - 1] == db.payments;
  }

  // ---------------------------------------------------------------------------
  // How the payments table shows the payer

  /** The payer joined through `payments_payer_id_fkey`: the payer whose `user_id` is the payment's `payer_id`. */
  function PayerOf(payment: PaymentRow, payers: seq<PayerRow>): (p: Option<PayerRow>)
    ensures p.Some? ==> p.value in payers && payment.payerId == Some(p.value.userId)
    ensures payment.payerId.None? ==> p.None?
  {
    if payment.payerId.None? || |payers| == 0 then None
    else if payers[0].userId == payment.payerId.value then Some(payers[0])
    else PayerOf(payment, payers[1..])
  }

  /** The text of the payments table's Payer cell: the payer's name, or "Unknown" when no payer joins. */
  function PayerCell(payment: PaymentRow, payers: seq<PayerRow>): string {
    match PayerOf(payment, payers)
    case None => UnknownPayer
    case Some(p) => p.firstName + " " + p.lastName.GetOr("")
  }

  /** Payer identifiers are distinct (`user_id` is the table's primary key). */
  predicate PayerIdsUnique(payers: seq<PayerRow>) {
    forall i, j :: 0 <= i < j < |payers| ==> payers[i].userId != payers[j].userId
  }

  /** A payment carrying a listed payer's id joins that payer. */
  lemma {:induction false} PayerOfFindsPayer(payment: PaymentRow, payers: seq<PayerRow>, payer: PayerRow)
    requires PayerIdsUnique(payers) && payer in payers && payment.payerId == Some(payer.userId)
    ensures PayerOf(payment, payers) == Some(payer)
    decreases |payers|
  {
    if payers[0] != payer {
      var rest := payers[1..];
      assert payer in rest;
      assert PayerIdsUnique(rest) by {
        forall i, j | 0 <= i < j < |rest|
          ensures rest[i].userId != rest[j].userId
        {
          assert rest[i] == payers[i + 1] && rest[j] == payers[j + 1];
        }
      }
      PayerOfFindsPayer(payment, rest, payer);
    }
  }

  /** As written, an assigned payment is listed under "Unknown" whoever it was assigned to. */
  lemma AsWrittenAssignmentShowsUnknown(db: Db, reference: string, org: int, payer: PayerRow, env: AssignEnv)
    requires AssignPaymentAsWritten(db, reference, org, payer, env).onAssigned
    ensures var payments := AssignPaymentAsWritten(db, reference, org, payer, env).db.payments;
            PayerCell(payments[|payments| - 1], db.payers) == UnknownPayer
  {
  }

  /** With the payer recorded, an assigned payment is listed under the payer it was assigned to. */
  lemma AssignedPaymentShowsPayer(db: Db, reference: string, org: int, payer: PayerRow, env: AssignEnv)
    requires PayerIdsUnique(db.payers) && payer in db.payers
    requires AssignPayment(db, reference, org, payer, env).onAssigned
    ensures var res := AssignPayment(db, reference, org, payer, env);
            PayerOf(res.db.payments[|res.db.payments| - 1], res.db.payers) == Some(payer)
  {
    var res := AssignPayment(db, reference, org, payer, env);
    PayerOfFindsPayer(res.db.payments[|res.db.payments| - 1], res.db.payers, payer);
  }
}

=== FILE: bank_csv_parser.dfy ===
/**
  The credit-row extraction of lib/parsers/bank-csv-parser.ts: a CSV file,
  already split into rows of cells, is scanned row by row; rows that are too
  short or whose first cell is not a date are skipped, rows whose amount does
  not parse are counted and reported, and of the rest only credits (positive
  amounts) are kept, in input order.

  The date library and `parseFloat` are oracles (`Parsers`); the ordered
  search over the fixed list of date formats and everything around it is
  modelled exactly.
*/
module BankCsvParser {
  import opened Wrappers
  import opened Text
  import opened Js

  /** A transaction as the parser reports it; `date` is `yyyy-MM-dd`. */
  datatype Transaction = Transaction(date: string, description: string, amount: real)

  /** What `parseBankCSV` resolves to. */
  datatype ParseResult = ParseResult(
    transactions: seq<Transaction>,
    invalidCount: nat,
    totalRows: nat,
    errors: seq<string>)

  /** A calendar date as the date library produces it. */
  datatype CalendarDate = CalendarDate(year: nat, month: nat, day: nat)

  /** The date patterns the parser tries. */
  datatype DateFormat =
    | DayMonthAbbrYear          // "ddMMMyyyy"
    | DaySlashMonthSlashYear    // "dd/MM/yyyy"
    | MonthSlashDaySlashYear    // "MM/dd/yyyy"
    | YearDashMonthDashDay      // "yyyy-MM-dd"
    | DaySpaceMonthAbbrSpaceYear  // "dd MMM yyyy"
    | DaySpaceMonthNameSpaceYear  // "dd MMMM yyyy"

  /** The formats in the order they are tried. */
  const DateFormats: seq<DateFormat> := [
    DayMonthAbbrYear, DaySlashMonthSlashYear, MonthSlashDaySlashYear,
    YearDashMonthDashDay, DaySpaceMonthAbbrSpaceYear, DaySpaceMonthNameSpaceYear
  ]

  /**
    The library routines the parser calls: `parseDate` is date-fns `parse`
    followed by `isValid` (`None` for an invalid date), `parseFloat` is the
    JavaScript global (`None` for `NaN`).
  */
  datatype Parsers = Parsers(
    parseDate: (string, DateFormat) -> Option<CalendarDate>,
    parseFloat: string -> Option<real>)

  // ---------------------------------------------------------------------------
  // Amounts

  /** `s.replace(/,/g, "")`: `s` with every comma removed. */
  function RemoveCommas(s: string): (t: string)
    ensures ',' !in t
    ensures |t| <= |s|
  {
    if |s| == 0 then ""
    else if s[|s| - 1] == ',' then RemoveCommas(s[..|s| - 1])
    else RemoveCommas(s[..|s| - 1]) + [s[|s| - 1]]
  }

  /** Removing commas from a string that has none changes nothing. */
  lemma {:induction false} RemoveCommasFixesCommaFree(s: string)
    requires ',' !in s
    ensures RemoveCommas(s) == s
  {
    if |s| > 0 {
      assert s[|s| - 1] in s;
      assert forall c :: c in s[..|s| - 1] ==> c in s;
      RemoveCommasFixesCommaFree(s[..|s| - 1]);
      assert s[..|s| - 1] + [s[|s| - 1]] == s;
    }
  }

  /** Removing commas twice is removing them once. */
  lemma RemoveCommasIdempotent(s: string)
    ensures RemoveCommas(RemoveCommas(s)) == RemoveCommas(s)
  {
    RemoveCommasFixesCommaFree(RemoveCommas(s));
  }

  /** `parseAmount`: the number in `s` once thousands separators are dropped, `None` for `NaN`. */
  function ParseAmount(s: string, p: Parsers): Option<real> {
    p.parseFloat(RemoveCommas(s))
  }

  /** Amount parsing does not see commas: a cell and the same cell without its commas parse alike. */
  lemma ParseAmountIgnoresCommas(s: string, p: Parsers)
    ensures ParseAmount(s, p) == ParseAmount(RemoveCommas(s), p)
  {
    RemoveCommasIdempotent(s);
  }

  // ---------------------------------------------------------------------------
  // Dates

  /** `format(date, "yyyy-MM-dd")`: year padded to four digits, month and day to two. */
  function FormatIsoDate(d: CalendarDate): string {
    PadNat(d.year, 4) + "-" + PadNat(d.month, 2) + "-" + PadNat(d.day, 2)
  }

  /** Reads a `yyyy-MM-dd` text back into a calendar date. */
  function ReadIsoDate(s: string): Option<CalendarDate> {
    if |s| == 10 && s[4] == '-' && s[7] == '-'
       && AllDecimal(s[..4]) && AllDecimal(s[5..7]) && AllDecimal(s[8..])
    then Some(CalendarDate(DecimalStringValue(s[..4]), DecimalStringValue(s[5..7]), DecimalStringValue(s[8..])))
    else None
  }

  /** Powers of ten. */
  function Pow10(w: nat): (r: nat)
    ensures r >= 1
  {
    if w == 0 then 1 else 10 * Pow10(w - 1)
  }

  /** A number below 10^w has at most w decimal digits. */
  lemma {:induction false} NatToStringShort(n: nat, w: nat)
    requires 1 <= w && n < Pow10(w)
    ensures |NatToString(n)| <= w
    decreases w
  {
    if n >= 10 {
      assert w > 1;
      NatToStringShort(n / 10, w - 1);
    }
  }

  /** Padding a number below 10^w to width w gives exactly w characters. */
  lemma PadNatExact(n: nat, w: nat)
    requires 1 <= w && n < Pow10(w)
    ensures |PadNat(n, w)| == w
  {
    NatToStringShort(n, w);
  }

  /** Every date with a four-digit year is written as exactly `yyyy-MM-dd` and reads back to itself. */
  lemma IsoDateRoundTrip(d: CalendarDate)
    requires d.year < 10000 && d.month < 100 && d.day < 100
    ensures |FormatIsoDate(d)| == 10
    ensures ReadIsoDate(FormatIsoDate(d)) == Some(d)
  {
    var y, m, dd := PadNat(d.year, 4), PadNat(d.month, 2), PadNat(d.day, 2);
    PadNatExact(d.year, 4);
    PadNatExact(d.month, 2);
    PadNatExact(d.day, 2);
    PadNatValue(d.year, 4);
    PadNatValue(d.month, 2);
    PadNatValue(d.day, 2);
    var s := FormatIsoDate(d);
    assert s == y + "-" + m + "-" + dd;
    assert s[..4] == y;
    assert s[5..7] == m;
    assert s[8..] == dd;
  }

  /**
    The first of `formats`, in order, under which the oracle accepts `s`:
    its position and the date it yields.
  */
  function FirstMatch(s: string, formats: seq<DateFormat>, p: Parsers): (r: Option<(nat, CalendarDate)>)
    ensures r.Some? ==> r.value.0 < |formats| && p.parseDate(s, formats[r.value.0]) == Some(r.value.1)
    ensures r.Some? ==> forall j :: 0 <= j < r.value.0 ==> p.parseDate(s, formats[j]).None?
    ensures r.None? ==> forall j :: 0 <= j < |formats| ==> p.parseDate(s, formats[j]).None?
  {
    if |formats| == 0 then None
    else match p.parseDate(s, formats[0])
      case Some(d) => Some((0, d))
      case None =>
        match FirstMatch(s, formats[1..], p)
        case None => None
        case Some((k, d)) => Some((k + 1, d))
  }

  /**
    `parseAndValidateDate`: the trimmed cell is tried against each format in
    order; the first that accepts it determines the date, which is returned
    as `yyyy-MM-dd`. No format accepting it means no date.
  */
  function ParseAndValidateDate(cell: string, p: Parsers): (r: Option<string>)
    ensures r.None? <==> forall j :: 0 <= j < |DateFormats| ==> p.parseDate(Trim(cell), DateFormats[j]).None?
    ensures forall k :: (0 <= k < |DateFormats|
                         && (forall j :: 0 <= j < k ==> p.parseDate(Trim(cell), DateFormats[j]).None?)
                         && p.parseDate(Trim(cell), DateFormats[k]).Some?) ==>
              r == Some(FormatIsoDate(p.parseDate(Trim(cell), DateFormats[k]).value))
  {
    var t := Trim(cell);
    FirstMatchIsFirst(t, DateFormats, p);
    match FirstMatch(t, DateFormats, p)
    case None => None
    case Some((_, d)) => Some(FormatIsoDate(d))
  }

  /** Any format that accepts `s` after every earlier one refused it is the one `FirstMatch` finds. */
  lemma FirstMatchIsFirst(s: string, formats: seq<DateFormat>, p: Parsers)
    ensures forall k :: (0 <= k < |formats|
                         && (forall j :: 0 <= j < k ==> p.parseDate(s, formats[j]).None?)
                         && p.parseDate(s, formats[k]).Some?) ==>
              FirstMatch(s, formats, p) == Some((k, p.parseDate(s, formats[k]).value))
  {
    forall k | 0 <= k < |formats|
                && (forall j :: 0 <= j < k ==> p.parseDate(s, formats[j]).None?)
                && p.parseDate(s, formats[k]).Some?
      ensures FirstMatch(s, formats, p) == Some((k, p.parseDate(s, formats[k]).value))
    {
      var r := FirstMatch(s, formats, p);
      assert r.Some?;
      assert !(r.value.0 < k) && !(k < r.value.0);
    }
  }

  /** The test's first row: a date library reading `09Sep2024` as 9 September 2024 yields `2024-09-09`. */
  lemma NormalisesDayMonthAbbrYear(cell: string, p: Parsers)
    requires cell == "09Sep2024"
    requires p.parseDate(cell, DayMonthAbbrYear) == Some(CalendarDate(2024, 9, 9))
    ensures ParseAndValidateDate(cell, p) == Some("2024-09-09")
  {
    TrimPlainCell(cell);
    FirstFormatAccepts(cell, CalendarDate(2024, 9, 9), p);
    SeptemberNinth2024Text();
  }

  /** When the first format accepts the trimmed cell, its date, formatted, is the answer. */
  lemma FirstFormatAccepts(s: string, d: CalendarDate, p: Parsers)
    requires p.parseDate(Trim(s), DateFormats[0]) == Some(d)
    ensures ParseAndValidateDate(s, p) == Some(FormatIsoDate(d))
  {
    assert FirstMatch(Trim(s), DateFormats, p) == Some((0, d));
  }

  /** The `yyyy-MM-dd` text of 9 September 2024. */
  lemma SeptemberNinth2024Text()
    ensures FormatIsoDate(CalendarDate(2024, 9, 9)) == "2024-09-09"
  {
    Year2024Text();
    assert PadNat(9, 2) == "09";
  }

  /** The four-digit text of the year 2024. */
  lemma Year2024Text()
    ensures PadNat(2024, 4) == "2024"
  {
    assert NatToString(2) == "2";
    assert NatToString(20) == "20";
    assert NatToString(202) == "202";
    assert NatToString(2024) == "2024";
  }

  // ---------------------------------------------------------------------------
  // Rows

  /** What one row contributes. */
  datatype RowVerdict = Skipped | InvalidAmount(message: string) | Parsed(tx: Transaction)

  /** The error reported for the row at 0-based `index`: it names the row by its 1-based number. */
  function InvalidAmountMessage(index: nat, cell: string): string {
    "Row " + NatToString(index + 1) + ": Invalid amount \"" + cell + "\""
  }

  /** The body of the per-row callback, for the row at 0-based `index`. */
  function ClassifyRow(row: seq<string>, index: nat, p: Parsers): (v: RowVerdict)
    // a row is skipped exactly when it is short or carries no recognisable date
    ensures v.Skipped? <==> |row| < 3 || ParseAndValidateDate(row[0], p).None?
    // a dated row is an error exactly when its amount does not parse
    ensures v.InvalidAmount? <==> |row| >= 3 && ParseAndValidateDate(row[0], p).Some? && ParseAmount(row[2], p).None?
    ensures v.InvalidAmount? ==>
              (|row| >= 3 && ParseAmount(row[2], p).None?
               && v.message == InvalidAmountMessage(index, row[2]))
    ensures v.Parsed? ==>
              (|row| >= 3 && ParseAndValidateDate(row[0], p) == Some(v.tx.date)
               && v.tx.description == row[1] && ParseAmount(row[2], p) == Some(v.tx.amount))
  {
    if |row| < 3 then Skipped
    else match ParseAndValidateDate(row[0], p)
      case None => Skipped
      case Some(date) =>
        match ParseAmount(row[2], p)
        case None => InvalidAmount(InvalidAmountMessage(index, row[2]))
        case Some(amount) => Parsed(Transaction(date, row[1], amount))
  }

  /** A row's index only shows in its error message: whether and what it contributes otherwise does not depend on it. */
  lemma ClassifyIgnoresIndex(row: seq<string>, i: nat, j: nat, p: Parsers)
    ensures ClassifyRow(row, i, p).Skipped? == ClassifyRow(row, j, p).Skipped?
    ensures ClassifyRow(row, i, p).InvalidAmount? == ClassifyRow(row, j, p).InvalidAmount?
    ensures ClassifyRow(row, i, p).Parsed? ==> ClassifyRow(row, j, p) == ClassifyRow(row, i, p)
  {
  }

  /** The transaction a row yields, if any. */
  function ParsedOf(v: RowVerdict): Option<Transaction> {
    if v.Parsed? then Some(v.tx) else None
  }

  /** The transaction a row yields if it is a credit. */
  function CreditOf(v: RowVerdict): Option<Transaction> {
    if v.Parsed? && v.tx.amount > 0.0 then Some(v.tx) else None
  }

  /** The error message a row yields, if any. */
  function ErrorOf(v: RowVerdict): Option<string> {
    if v.InvalidAmount? then Some(v.message) else None
  }

  /** What `pick` selects from each row, in row order; the first row has index `base`. */
  function Gather<T>(rows: seq<seq<string>>, base: nat, pick: (seq<string>, nat) -> Option<T>): seq<T>
    decreases |rows|
  {
    if |rows| == 0 then []
    else
      var last := pick(rows[|rows| - 1], base + |rows| - 1);
      Gather(rows[..|rows| - 1], base, pick) + (if last.Some? then [last.value] else [])
  }

  /** Gathering over two blocks of rows is gathering over each. */
  lemma {:induction false} GatherAppend<T>(a: seq<seq<string>>, b: seq<seq<string>>, base: nat,
                                           pick: (seq<string>, nat) -> Option<T>)
    ensures Gather(a + b, base, pick) == Gather(a, base, pick) + Gather(b, base + |a|, pick)
    decreases |b|
  {
    if |b| > 0 {
      assert (a + b)[..|a + b| - 1] == a + b[..|b| - 1];
      GatherAppend(a, b[..|b| - 1], base, pick);
    } else {
      assert a + b == a;
    }
  }

  /** The positions of the rows that contribute to `Gather`, in order. */
  function Contributors<T>(rows: seq<seq<string>>, base: nat, pick: (seq<string>, nat) -> Option<T>): (idx: seq<nat>)
    ensures |idx| == |Gather(rows, base, pick)|
    ensures forall k :: 0 <= k < |idx| ==> idx[k] < |rows|
    decreases |rows|
  {
    if |rows| == 0 then []
    else
      var n := |rows| - 1;
      Contributors(rows[..n], base, pick) + (if pick(rows[n], base + n).Some? then [n] else [])
  }

  /** Each contributing row contributes exactly its own selection. */
  lemma {:induction false} ContributorsPick<T>(rows: seq<seq<string>>, base: nat, pick: (seq<string>, nat) -> Option<T>)
    ensures var idx := Contributors(rows, base, pick);
            forall k :: 0 <= k < |idx| ==> pick(rows[idx[k]], base + idx[k]) == Some(Gather(rows, base, pick)[k])
    decreases |rows|
  {
    if |rows| > 0 {
      var n := |rows| - 1;
      var init := rows[..n];
      ContributorsPick(init, base, pick);
      var prefix := Contributors(init, base, pick);
      var idx := Contributors(rows, base, pick);
      var g := Gather(rows, base, pick);
      var gi := Gather(init, base, pick);
      var last := pick(rows[n], base + n);
      assert g == gi + (if last.Some? then [last.value] else []);
      assert idx == prefix + (if last.Some? then [n] else []);
      forall k | 0 <= k < |idx|
        ensures pick(rows[idx[k]], base + idx[k]) == Some(g[k])
      {
        if k < |prefix| {
          assert idx[k] == prefix[k] && g[k] == gi[k];
          assert rows[prefix[k]] == init[prefix[k]];
        } else {
          assert idx[k] == n && g[k] == last.value;
        }
      }
    }
  }

  /** The elements of `s` are strictly increasing. */
  predicate Increasing(s: seq<nat>) {
    forall k, l :: 0 <= k < l < |s| ==> s[k] < s[l]
  }

  /** Appending an element above all others keeps a sequence increasing. */
  lemma IncreasingSnoc(s: seq<nat>, x: nat)
    requires Increasing(s)
    requires forall k :: 0 <= k < |s| ==> s[k] < x
    ensures Increasing(s + [x])
  {
    var t := s + [x];
    forall k, l | 0 <= k < l < |t|
      ensures t[k] < t[l]
    {
      assert t[k] == s[k];
    }
  }

  /** The contributing positions are strictly increasing. */
  lemma {:induction false} ContributorsIncrease<T>(rows: seq<seq<string>>, base: nat, pick: (seq<string>, nat) -> Option<T>)
    ensures Increasing(Contributors(rows, base, pick))
    decreases |rows|
  {
    if |rows| > 0 {
      var n := |rows| - 1;
      var prefix := Contributors(rows[..n], base, pick);
      ContributorsIncrease(rows[..n], base, pick);
      if pick(rows[n], base + n).Some? {
        IncreasingSnoc(prefix, n);
      } else {
        assert Contributors(rows, base, pick) == prefix;
      }
    }
  }

  /** No row with something to contribute is left out. */
  lemma {:induction false} ContributorsComplete<T>(rows: seq<seq<string>>, base: nat, pick: (seq<string>, nat) -> Option<T>)
    ensures forall j :: 0 <= j < |rows| && pick(rows[j], base + j).Some? ==> j in Contributors(rows, base, pick)
    decreases |rows|
  {
    if |rows| > 0 {
      var n := |rows| - 1;
      var init := rows[..n];
      var prefix := Contributors(init, base, pick);
      var idx := Contributors(rows, base, pick);
      ContributorsComplete(init, base, pick);
      assert idx == prefix + (if pick(rows[n], base + n).Some? then [n] else []);
      forall j | 0 <= j < |rows| && pick(rows[j], base + j).Some?
        ensures j in idx
      {
        if j < n {
          assert rows[j] == init[j];
          assert j in prefix;
        }
      }
    }
  }

  /**
    Gather selects an order-preserving subsequence: the returned `idx` lists,
    strictly increasing, the rows that contribute, each contributing exactly
    its own selection, and no other row has anything to contribute.
  */
  lemma GatherSelection<T>(rows: seq<seq<string>>, base: nat, pick: (seq<string>, nat) -> Option<T>)
    returns (idx: seq<nat>)
    ensures |idx| == |Gather(rows, base, pick)|
    ensures forall k :: 0 <= k < |idx| ==>
              (idx[k] < |rows| && pick(rows[idx[k]], base + idx[k]) == Some(Gather(rows, base, pick)[k]))
    ensures forall k, l :: 0 <= k < l < |idx| ==> idx[k] < idx[l]
    ensures forall j :: 0 <= j < |rows| && pick(rows[j], base + j).Some? ==> j in idx
  {
    idx := Contributors(rows, base, pick);
    ContributorsPick(rows, base, pick);
    ContributorsIncrease(rows, base, pick);
    ContributorsComplete(rows, base, pick);
  }

  /** The per-row selections the three views below gather. */
  function ParsedPick(p: Parsers): (seq<string>, nat) -> Option<Transaction> {
    (r: seq<string>, i: nat) => ParsedOf(ClassifyRow(r, i, p))
  }

  function CreditPick(p: Parsers): (seq<string>, nat) -> Option<Transaction> {
    (r: seq<string>, i: nat) => CreditOf(ClassifyRow(r, i, p))
  }

  function ErrorPick(p: Parsers): (seq<string>, nat) -> Option<string> {
    (r: seq<string>, i: nat) => ErrorOf(ClassifyRow(r, i, p))
  }

  /** Every parsed row, in order, before the credit filter. */
  function ParsedRows(rows: seq<seq<string>>, base: nat, p: Parsers): seq<Transaction> {
    Gather(rows, base, ParsedPick(p))
  }

  /** The credit rows, in order. */
  function CreditRows(rows: seq<seq<string>>, base: nat, p: Parsers): seq<Transaction> {
    Gather(rows, base, CreditPick(p))
  }

  /** The messages of the rows with an unparseable amount, in order. */
  function ErrorRows(rows: seq<seq<string>>, base: nat, p: Parsers): seq<string> {
    Gather(rows, base, ErrorPick(p))
  }

  /** The transactions with a positive amount, in order (the `filter` after the row loop). */
  function PositiveOnly(txs: seq<Transaction>): (r: seq<Transaction>)
    ensures |r| <= |txs|
  {
    if |txs| == 0 then []
    else PositiveOnly(txs[..|txs| - 1]) + (if txs[|txs| - 1].amount > 0.0 then [txs[|txs| - 1]] else [])
  }

  /** Filtering the parsed rows for positive amounts gives the credit rows. */
  lemma {:induction false} PositiveParsedAreCredits(rows: seq<seq<string>>, base: nat, p: Parsers)
    ensures PositiveOnly(ParsedRows(rows, base, p)) == CreditRows(rows, base, p)
    decreases |rows|
  {
    if |rows| > 0 {
      var n := |rows| - 1;
      PositiveParsedAreCredits(rows[..n], base, p);
      var pre := ParsedRows(rows[..n], base, p);
      var v := ClassifyRow(rows[n], base + n, p);
      if v.Parsed? {
        assert ParsedRows(rows, base, p) == pre + [v.tx];
        assert (pre + [v.tx])[..|pre|] == pre;
      } else {
        assert ParsedRows(rows, base, p) == pre;
      }
    }
  }

  /** Which credits and how many errors the rows yield does not depend on where the rows are numbered from. */
  lemma {:induction false} NumberingOnlyAffectsMessages(rows: seq<seq<string>>, b1: nat, b2: nat, p: Parsers)
    ensures CreditRows(rows, b1, p) == CreditRows(rows, b2, p)
    ensures |ErrorRows(rows, b1, p)| == |ErrorRows(rows, b2, p)|
    decreases |rows|
  {
    if |rows| > 0 {
      var n := |rows| - 1;
      NumberingOnlyAffectsMessages(rows[..n], b1, b2, p);
      ClassifyIgnoresIndex(rows[n], b1 + n, b2 + n, p);
    }
  }

  /** What one more row adds to the parsed rows and the messages, case by case as the row loop decides. */
  lemma RowStep(rows: seq<seq<string>>, index: nat, p: Parsers)
    requires index < |rows|
    ensures var row := rows[index];
            (|row| < 3 || ParseAndValidateDate(row[0], p).None?) ==>
              (ParsedRows(rows[..index + 1], 0, p) == ParsedRows(rows[..index], 0, p)
               && ErrorRows(rows[..index + 1], 0, p) == ErrorRows(rows[..index], 0, p))
    ensures var row := rows[index];
            (|row| >= 3 && ParseAndValidateDate(row[0], p).Some? && ParseAmount(row[2], p).None?) ==>
              (ParsedRows(rows[..index + 1], 0, p) == ParsedRows(rows[..index], 0, p)
               && ErrorRows(rows[..index + 1], 0, p)
                  == ErrorRows(rows[..index], 0, p) + [InvalidAmountMessage(index, row[2])])
    ensures var row := rows[index];
            (|row| >= 3 && ParseAndValidateDate(row[0], p).Some? && ParseAmount(row[2], p).Some?) ==>
              (ParsedRows(rows[..index + 1], 0, p)
                 == ParsedRows(rows[..index], 0, p)
                    + [Transaction(ParseAndValidateDate(row[0], p).value, row[1], ParseAmount(row[2], p).value)]
               && ErrorRows(rows[..index + 1], 0, p) == ErrorRows(rows[..index], 0, p))
  {
    assert rows[..index + 1][..index] == rows[..index];
  }

  /**
    The reference definition of `parseBankCSV`'s result: the credit rows, the
    invalid-amount messages and the two counters derived from them.
  */
  function ParseRows(rows: seq<seq<string>>, p: Parsers): (r: ParseResult)
    ensures r.invalidCount == |r.errors| && r.totalRows == |r.transactions|
  {
    var credits := CreditRows(rows, 0, p);
    var errors := ErrorRows(rows, 0, p);
    ParseResult(credits, |errors|, |credits|, errors)
  }

  /**
    `parseBankCSV`: the row loop followed by the credit filter, with the
    counters taken from what the loop collected.
  */
  method ParseBankCsv(rows: seq<seq<string>>, p: Parsers) returns (result: ParseResult)
    ensures result == ParseRows(rows, p)
    ensures result.invalidCount == |result.errors|
    ensures result.totalRows == |result.transactions|
    ensures forall k :: 0 <= k < |result.transactions| ==> result.transactions[k].amount > 0.0
  {
    var transactions, invalidCount, errors := ScanRows(rows, p);
    var credits := KeepCredits(transactions);
    PositiveParsedAreCredits(rows, 0, p);
    result := ParseResult(credits, invalidCount, |credits|, errors);
  }

  /**
    The `forEach` over the rows: it keeps the parsed rows and the messages of
    the rows with an unparseable amount, and counts the latter.
  */
  method ScanRows(rows: seq<seq<string>>, p: Parsers)
    returns (transactions: seq<Transaction>, invalidCount: nat, errors: seq<string>)
    ensures transactions == ParsedRows(rows, 0, p)
    ensures errors == ErrorRows(rows, 0, p)
    ensures invalidCount == |errors|
  {
    transactions := [];
    invalidCount := 0;
    errors := [];
    var index := 0;
    while index < |rows|
      invariant 0 <= index <= |rows|
      invariant transactions == ParsedRows(rows[..index], 0, p)
      invariant errors == ErrorRows(rows[..index], 0, p)
      invariant invalidCount == |errors|
    {
      var row := rows[index];
      RowStep(rows, index, p);
      if |row| >= 3 {
        var date := ParseAndValidateDate(row[0], p);
        if date.Some? {
          var description := row[1];
          var amount := ParseAmount(row[2], p);
          if amount.None? {
            invalidCount := invalidCount + 1;
            errors := errors + [InvalidAmountMessage(index, row[2])];
          } else {
            transactions := transactions + [Transaction(date.value, description, amount.value)];
          }
        }
      }
      index := index + 1;
    }
    assert rows[..|rows|] == rows;
  }

  /** `transactions.filter((t) => t.amount > 0)`. */
  method KeepCredits(transactions: seq<Transaction>) returns (credits: seq<Transaction>)
    ensures credits == PositiveOnly(transactions)
    ensures forall j :: 0 <= j < |credits| ==> credits[j].amount > 0.0
  {
    credits := [];
    var k := 0;
    while k < |transactions|
      invariant 0 <= k <= |transactions|
      invariant credits == PositiveOnly(transactions[..k])
      invariant forall j :: 0 <= j < |credits| ==> credits[j].amount > 0.0
    {
      assert transactions[..k + 1][..k] == transactions[..k];
      if transactions[k].amount > 0.0 {
        credits := credits + [transactions[k]];
      }
      k := k + 1;
    }
    assert transactions[..|transactions|] == transactions;
  }

  // ---------------------------------------------------------------------------
  // Properties of the result

  /** Every reported transaction is a credit. */
  lemma {:induction false} OnlyCredits(rows: seq<seq<string>>, p: Parsers)
    ensures forall k :: 0 <= k < |ParseRows(rows, p).transactions| ==> ParseRows(rows, p).transactions[k].amount > 0.0
  {
    var idx := GatherSelection(rows, 0, CreditPick(p));
  }

  /**
    The transactions are an order-preserving selection of the rows: `idx`
    names, strictly increasing, the rows they come from; each keeps its row's
    description verbatim, the normalised date of its first cell and the parsed
    amount of its third, which is positive. Conversely every row with a date
    and a positive amount is selected.
  */
  lemma CreditsSelectRows(rows: seq<seq<string>>, p: Parsers) returns (idx: seq<nat>)
    ensures |idx| == |ParseRows(rows, p).transactions|
    ensures forall k, l :: 0 <= k < l < |idx| ==> idx[k] < idx[l]
    ensures forall k :: 0 <= k < |idx| ==>
              (idx[k] < |rows| && |rows[idx[k]]| >= 3
               && ParseRows(rows, p).transactions[k].description == rows[idx[k]][1]
               && ParseAndValidateDate(rows[idx[k]][0], p) == Some(ParseRows(rows, p).transactions[k].date)
               && ParseAmount(rows[idx[k]][2], p) == Some(ParseRows(rows, p).transactions[k].amount)
               && ParseRows(rows, p).transactions[k].amount > 0.0)
    ensures forall j :: (0 <= j < |rows| && |rows[j]| >= 3 && ParseAndValidateDate(rows[j][0], p).Some?
                         && ParseAmount(rows[j][2], p).Some? && ParseAmount(rows[j][2], p).value > 0.0)
                        ==> j in idx
  {
    var pick := CreditPick(p);
    idx := GatherSelection(rows, 0, pick);
  }

  /**
    Each row with a date but an unparseable amount yields exactly one error,
    carrying its 1-based row number and the offending cell, in row order; no
    other row yields one.
  */
  lemma ErrorsNameInvalidRows(rows: seq<seq<string>>, p: Parsers) returns (idx: seq<nat>)
    ensures |idx| == |ParseRows(rows, p).errors| == ParseRows(rows, p).invalidCount
    ensures forall k, l :: 0 <= k < l < |idx| ==> idx[k] < idx[l]
    ensures forall k :: 0 <= k < |idx| ==>
              (idx[k] < |rows| && |rows[idx[k]]| >= 3
               && ParseAndValidateDate(rows[idx[k]][0], p).Some?
               && ParseAmount(rows[idx[k]][2], p).None?
               && ParseRows(rows, p).errors[k] == InvalidAmountMessage(idx[k], rows[idx[k]][2]))
    ensures forall j :: (0 <= j < |rows| && |rows[j]| >= 3 && ParseAndValidateDate(rows[j][0], p).Some?
                         && ParseAmount(rows[j][2], p).None?)
                        ==> j in idx
  {
    var pick := ErrorPick(p);
    idx := GatherSelection(rows, 0, pick);
  }

  /**
    A row that is skipped (fewer than three cells, or a first cell that is no
    date) adds no transaction and no error wherever it stands; it only shifts
    the row numbers in the messages of the rows after it.
  */
  lemma SkippedRowChangesNothing(before: seq<seq<string>>, row: seq<string>, after: seq<seq<string>>, p: Parsers)
    requires |row| < 3 || ParseAndValidateDate(row[0], p).None?
    ensures ParseRows(before + [row] + after, p).transactions == ParseRows(before + after, p).transactions
    ensures ParseRows(before + [row] + after, p).totalRows == ParseRows(before + after, p).totalRows
    ensures ParseRows(before + [row] + after, p).invalidCount == ParseRows(before + after, p).invalidCount
    ensures ParseRows(before + [row] + after, p).errors
      == ErrorRows(before, 0, p) + ErrorRows(after, |before| + 1, p)
    ensures ParseRows(before + after, p).errors
      == ErrorRows(before, 0, p) + ErrorRows(after, |before|, p)
  {
    GatherSkipsRow(before, row, after, CreditPick(p));
    GatherSkipsRow(before, row, after, ErrorPick(p));
    GatherAppend(before, after, 0, CreditPick(p));
    GatherAppend(before, after, 0, ErrorPick(p));
    NumberingOnlyAffectsMessages(after, |before| + 1, |before|, p);
  }

  /** A row from which nothing is picked leaves the gathered list as without it, later rows numbered one further. */
  lemma GatherSkipsRow<T>(before: seq<seq<string>>, row: seq<string>, after: seq<seq<string>>,
                          pick: (seq<string>, nat) -> Option<T>)
    requires pick(row, |before|).None?
    ensures Gather(before + [row] + after, 0, pick) == Gather(before, 0, pick) + Gather(after, |before| + 1, pick)
  {
    GatherAppend(before + [row], after, 0, pick);
    GatherAppend(before, [row], 0, pick);
    assert Gather([row], |before|, pick) == [];
  }

  /**
    A header line such as `Date,Description,Amount` (its first cell is no
    date) leaves the transactions and counters as they are without it, and the
    error list too when the data rows have no invalid amount; otherwise the
    messages number the rows counting the header.
  */
  lemma HeaderRowIsIgnored(header: seq<string>, rows: seq<seq<string>>, p: Parsers)
    requires |header| < 3 || ParseAndValidateDate(header[0], p).None?
    ensures ParseRows([header] + rows, p).transactions == ParseRows(rows, p).transactions
    ensures ParseRows([header] + rows, p).totalRows == ParseRows(rows, p).totalRows
    ensures ParseRows([header] + rows, p).invalidCount == ParseRows(rows, p).invalidCount
    ensures ParseRows([header] + rows, p).errors == ErrorRows(rows, 1, p)
    ensures ParseRows(rows, p).errors == [] ==> ParseRows([header] + rows, p).errors == []
  {
    SkippedRowChangesNothing([], header, rows, p);
    assert [] + [header] + rows == [header] + rows;
    assert [] + rows == rows;
  }

  /**
    The test scenario without a header: two credits and a debit, with the
    date library and `parseFloat` reading the cells as a person would.
  */
  predicate ScenarioInput(rows: seq<seq<string>>, p: Parsers) {
    && |rows| == 3
    && rows[0] == ["09Sep2024", "Salary", "14269.04"]
    && rows[1] == ["20Sep2024", "Cash Deposit", "2580.00"]
    && rows[2] == ["21Sep2024", "Payment", "-100.00"]
    && p.parseDate("09Sep2024", DayMonthAbbrYear) == Some(CalendarDate(2024, 9, 9))
    && p.parseDate("20Sep2024", DayMonthAbbrYear) == Some(CalendarDate(2024, 9, 20))
    && p.parseDate("21Sep2024", DayMonthAbbrYear) == Some(CalendarDate(2024, 9, 21))
    && p.parseFloat("14269.04") == Some(14269.04)
    && p.parseFloat("2580.00") == Some(2580.0)
    && p.parseFloat("-100.00") == Some(-100.0)
  }

  /** On the scenario the result is exactly the two credits, in order, with no error. */
  lemma SalaryDepositPaymentScenario(rows: seq<seq<string>>, p: Parsers)
    requires ScenarioInput(rows, p)
    ensures ParseRows(rows, p)
      == ParseResult([Transaction("2024-09-09", "Salary", 14269.04),
                      Transaction("2024-09-20", "Cash Deposit", 2580.0)], 0, 2, [])
  {
    SalaryRowParses(rows, p);
    DepositRowParses(rows, p);
    PaymentRowParses(rows, p);
    ScenarioCredits(rows, p, Transaction("2024-09-09", "Salary", 14269.04),
                    Transaction("2024-09-20", "Cash Deposit", 2580.0));
    ScenarioErrors(rows, p);
  }

  /** Over three rows of which the first two are credits and the third is not, the credits are the first two. */
  lemma ScenarioCredits(rows: seq<seq<string>>, p: Parsers, first: Transaction, second: Transaction)
    requires |rows| == 3
    requires CreditPick(p)(rows[0], 0) == Some(first) && CreditPick(p)(rows[1], 1) == Some(second)
    requires CreditPick(p)(rows[2], 2) == None
    ensures CreditRows(rows, 0, p) == [first, second]
  {
    var pick := CreditPick(p);
    assert Gather(rows, 0, pick) == [first, second] by {
      assert pick(rows[1], 0 + 1) == Some(second) && pick(rows[2], 0 + 2).None?;
      GatherTwoOfThree(rows, 0, pick, first, second);
    }
  }

  /** Over three rows none of which has an unparseable amount, there is no error. */
  lemma ScenarioErrors(rows: seq<seq<string>>, p: Parsers)
    requires |rows| == 3
    requires ErrorPick(p)(rows[0], 0) == None && ErrorPick(p)(rows[1], 1) == None
    requires ErrorPick(p)(rows[2], 2) == None
    ensures ErrorRows(rows, 0, p) == []
  {
    var pick := ErrorPick(p);
    assert Gather(rows, 0, pick) == [] by {
      assert pick(rows[1], 0 + 1).None? && pick(rows[2], 0 + 2).None?;
      GatherNoneOfThree(rows, 0, pick);
    }
  }

  /** Over three rows of which the first two contribute and the third does not, `Gather` is the first two selections. */
  lemma GatherTwoOfThree<T>(rows: seq<seq<string>>, base: nat, pick: (seq<string>, nat) -> Option<T>, first: T, second: T)
    requires |rows| == 3
    requires pick(rows[0], base) == Some(first) && pick(rows[1], base + 1) == Some(second)
    requires pick(rows[2], base + 2).None?
    ensures Gather(rows, base, pick) == [first, second]
  {
    GatherOfThree(rows, base, pick);
  }

  /** Over three rows none of which contributes, `Gather` is empty. */
  lemma GatherNoneOfThree<T>(rows: seq<seq<string>>, base: nat, pick: (seq<string>, nat) -> Option<T>)
    requires |rows| == 3
    requires pick(rows[0], base).None? && pick(rows[1], base + 1).None? && pick(rows[2], base + 2).None?
    ensures Gather(rows, base, pick) == []
  {
    GatherOfThree(rows, base, pick);
  }

  /** The first row of the scenario is a credit of 14269.04 on 9 September 2024. */
  lemma SalaryRowParses(rows: seq<seq<string>>, p: Parsers)
    requires ScenarioInput(rows, p)
    ensures |rows| == 3
    ensures CreditPick(p)(rows[0], 0) == Some(Transaction("2024-09-09", "Salary", 14269.04))
    ensures ErrorPick(p)(rows[0], 0) == None
  {
    PlainRowParses(rows[0], 0, CalendarDate(2024, 9, 9), 14269.04, p);
    SeptemberNinth2024Text();
  }

  /** The second row of the scenario is a credit of 2580.00 on 20 September 2024. */
  lemma DepositRowParses(rows: seq<seq<string>>, p: Parsers)
    requires ScenarioInput(rows, p)
    ensures |rows| == 3
    ensures CreditPick(p)(rows[1], 1) == Some(Transaction("2024-09-20", "Cash Deposit", 2580.0))
    ensures ErrorPick(p)(rows[1], 1) == None
  {
    PlainRowParses(rows[1], 1, CalendarDate(2024, 9, 20), 2580.0, p);
    SeptemberTwentieth2024Text();
  }

  /** The third row of the scenario parses to a debit of 100.00, which is neither a credit nor an error. */
  lemma PaymentRowParses(rows: seq<seq<string>>, p: Parsers)
    requires ScenarioInput(rows, p)
    ensures |rows| == 3
    ensures CreditPick(p)(rows[2], 2) == None && ErrorPick(p)(rows[2], 2) == None
  {
    PlainRowParses(rows[2], 2, CalendarDate(2024, 9, 21), -100.0, p);
  }

  /** What `pick` selects, as a sequence of zero or one elements. */
  function AsSeq<T>(o: Option<T>): (s: seq<T>)
    ensures o.None? ==> s == []
    ensures o.Some? ==> s == [o.value]
  {
    if o.Some? then [o.value] else []
  }

  /** Gathering over three rows is the selections of the three rows, in order. */
  lemma GatherOfThree<T>(rows: seq<seq<string>>, base: nat, pick: (seq<string>, nat) -> Option<T>)
    requires |rows| == 3
    ensures Gather(rows, base, pick)
      == AsSeq(pick(rows[0], base)) + AsSeq(pick(rows[1], base + 1)) + AsSeq(pick(rows[2], base + 2))
  {
    var two := rows[..2];
    var one := two[..1];
    assert one[..0] == [] && one[0] == rows[0] && two[1] == rows[1];
    assert Gather(one, base, pick) == AsSeq(pick(rows[0], base));
    assert Gather(two, base, pick) == AsSeq(pick(rows[0], base)) + AsSeq(pick(rows[1], base + 1));
  }

  /**
    A row whose date cell is already trimmed and read by the first format,
    and whose amount cell has no comma, parses to that date and amount.
  */
  lemma PlainRowParses(row: seq<string>, index: nat, d: CalendarDate, amount: real, p: Parsers)
    requires |row| >= 3 && |row[0]| > 0 && !IsWhitespace(row[0][0]) && !IsWhitespace(row[0][|row[0]| - 1])
    requires p.parseDate(row[0], DateFormats[0]) == Some(d)
    requires ',' !in row[2] && p.parseFloat(row[2]) == Some(amount)
    ensures ClassifyRow(row, index, p) == Parsed(Transaction(FormatIsoDate(d), row[1], amount))
  {
    TrimPlainCell(row[0]);
    FirstFormatAccepts(row[0], d, p);
    RemoveCommasFixesCommaFree(row[2]);
  }

  /** The `yyyy-MM-dd` text of 20 September 2024. */
  lemma SeptemberTwentieth2024Text()
    ensures FormatIsoDate(CalendarDate(2024, 9, 20)) == "2024-09-20"
  {
    Year2024Text();
    assert PadNat(9, 2) == "09";
    assert NatToString(2) == "2";
    assert NatToString(20) == "20";
    assert PadNat(20, 2) == "20";
  }
}

=== FILE: file_upload.dfy ===
/**
  The upload dialog of components/fileUpload.tsx: dropping a file fills the
  form, submitting validates it, packs it into the entries the server action
  reads, and reports the action's answer as a toast.
*/
module FileUpload {
  import opened Wrappers
  import opened Text
  import opened Js
  import opened AiParser
  import opened ProcessBankStatement

  /** The form values: a file name, the process flag and the dropped file. */
  datatype UploadForm = UploadForm(fileName: string, processFile: bool, file: Option<UploadedFile>)

  /** What a submission leads to. */
  datatype SubmitOutcome =
    | Invalid(message: string)                          // the schema rejected the values; nothing is sent
    | NoFile(message: string)                           // no file was chosen; nothing is sent
    | Answered(sent: SubmittedForm, message: string, succeeded: bool, after: UploadForm)

  /** How the call of the server action ends on the client: with its answer, or rejected (the `catch`). */
  datatype Delivery = Returned(answer: ActionResult) | Rejected

  const FileNameRequired := "File name is required"
  const SelectFileFirst := "Please select a file first"
  const UploadedSuccessfully := "File uploaded successfully"
  const ProcessingFailed := "An error occurred while processing the file"

  /** The default values, which `form.reset()` also restores. */
  const DefaultForm := UploadForm("", false, None)

  /** `name.split(".").slice(0, -1).join(".")`: the name without its extension, empty when it has no dot. */
  function Stem(name: string): string {
    AllButLastSegment(name, '.')
  }

  /** The stem and the extension the server appends make the dropped name again exactly when it has a dot. */
  lemma StemAndExtensionRebuildName(name: string)
    ensures Stem(name) + FileExtension(name) == name <==> '.' in name
    ensures '.' !in name ==> Stem(name) == ""
  {
    LastSegmentSplits(name, '.');
    if '.' !in name {
      assert |Stem(name) + FileExtension(name)| == |name| + 1;
    } else {
      assert Stem(name) + FileExtension(name) == AllButLastSegment(name, '.') + ['.'] + LastSegment(name, '.');
    }
  }

  /** `onDrop`: the first accepted file becomes the form's file and its stem the file name; no files change nothing. */
  function OnDrop(form: UploadForm, accepted: seq<UploadedFile>): (after: UploadForm)
    ensures |accepted| == 0 ==> after == form
    ensures |accepted| > 0 ==>
              after == UploadForm(Stem(accepted[0].name), form.processFile, Some(accepted[0]))
  {
    if |accepted| > 0 then
      var file := accepted[0];
      form.(file := Some(file), fileName := Stem(file.name))
    else form
  }

  /** The text `value.toString()` gives for a boolean. */
  function BoolText(value: bool): string {
    if value then "true" else "false"
  }

  /** The server reads back exactly the flag the form holds. */
  lemma BoolTextRoundTrip(value: bool)
    ensures DecodeProcessFile(Some(BoolText(value))) == value
  {
  }

  /** The schema: a file name at least one UTF-16 code unit long. */
  predicate SchemaAccepts(form: UploadForm) {
    Utf16Length(form.fileName) >= 1
  }

  /** A value that is `""` when absent or empty: `user?.id || ""`. */
  function OrEmpty(value: Option<string>): string {
    if value.Some? then value.value else ""
  }

  /** The entries appended to the `FormData`; the organisation name is the user's e-mail. */
  function BuildEntries(form: UploadForm, file: UploadedFile, organizationId: int, user: Option<AuthUser>): SubmittedForm {
    SubmittedForm(
      Some(file),
      Some(form.fileName),
      Some(IntToString(organizationId)),
      Some(BoolText(form.processFile)),
      Some(OrEmpty(if user.Some? then Some(user.value.id) else None)),
      Some(OrEmpty(if user.Some? then user.value.email else None)))
  }

  /** `result.error` is truthy: the answer carries an error message that is not empty. */
  predicate ReportsError(answer: ActionResult) {
    answer.Errored? && answer.message != ""
  }

  /**
    `onSubmit` behind the form's validation. An answer whose `error` is
    truthy becomes an error toast and the form stays; any other answer,
    including an error with an empty message, is taken as success: the dialog
    closes and the form is reset. A rejected call shows a generic error.
  */
  function Submit(form: UploadForm, organizationId: int, user: Option<AuthUser>,
                  action: SubmittedForm -> Delivery): (outcome: SubmitOutcome)
    ensures !SchemaAccepts(form) <==> outcome == Invalid(FileNameRequired)
    ensures outcome == NoFile(SelectFileFirst) <==> SchemaAccepts(form) && form.file.None?
    ensures outcome.NoFile? ==> outcome.message == SelectFileFirst
    ensures outcome.Answered? ==>
              && form.file.Some?
              && outcome.sent.file == form.file
              && outcome.sent.fileName == Some(form.fileName)
              && (outcome.succeeded <==> action(outcome.sent).Returned? && !ReportsError(action(outcome.sent).answer))
              && (outcome.succeeded ==> outcome.message == UploadedSuccessfully && outcome.after == DefaultForm)
              && (!outcome.succeeded ==> outcome.after == form)
              && (action(outcome.sent).Rejected? ==> outcome.message == ProcessingFailed)
              && (action(outcome.sent).Returned? && ReportsError(action(outcome.sent).answer) ==>
                    outcome.message == action(outcome.sent).answer.message)
  {
    if !SchemaAccepts(form) then Invalid(FileNameRequired)
    else if form.file.None? then NoFile(SelectFileFirst)
    else
      var entries := BuildEntries(form, form.file.value, organizationId, user);
      match action(entries)
      case Rejected => Answered(entries, ProcessingFailed, false, form)
      case Returned(answer) =>
        if ReportsError(answer) then Answered(entries, answer.message, false, form)
        else Answered(entries, UploadedSuccessfully, true, DefaultForm)
  }

  /** The server action `processBankStatement` reached over the network: it always answers. */
  function Server(b: Backend, x: Extractor): SubmittedForm -> Delivery {
    (sent: SubmittedForm) => Returned(ProcessStatement(sent, b, x).result)
  }

  /**
    What the dialog reports follows the server's answer: success exactly when
    the server succeeded or failed with an empty message (a parser error
    thrown without a message reaches the client as `error: ""`), otherwise
    the server's message.
  */
  lemma SubmitReportsServerAnswer(form: UploadForm, organizationId: int, user: Option<AuthUser>,
                                  b: Backend, x: Extractor)
    requires SchemaAccepts(form) && form.file.Some?
    ensures var run := ProcessStatement(BuildEntries(form, form.file.value, organizationId, user), b, x);
            var outcome := Submit(form, organizationId, user, Server(b, x));
            && outcome.Answered?
            && (outcome.succeeded <==> run.result.Succeeded? || run.result.message == "")
            && (!outcome.succeeded ==> outcome.message == run.result.message)
  {
    var sent := BuildEntries(form, form.file.value, organizationId, user);
    var answer := ProcessStatement(sent, b, x).result;
    assert Server(b, x)(sent) == Returned(answer);
    SubmitFollowsAnswer(form, organizationId, user, Server(b, x), answer);
  }

  /** Once the action answers, success is the absence of a truthy error, and an error shows its own message. */
  lemma SubmitFollowsAnswer(form: UploadForm, organizationId: int, user: Option<AuthUser>,
                            action: SubmittedForm -> Delivery, answer: ActionResult)
    requires SchemaAccepts(form) && form.file.Some?
    requires action(BuildEntries(form, form.file.value, organizationId, user)) == Returned(answer)
    ensures var outcome := Submit(form, organizationId, user, action);
            && outcome.Answered?
            && (outcome.succeeded <==> answer.Succeeded? || answer.message == "")
            && (!outcome.succeeded ==> outcome.message == answer.message)
  {
  }

  /**
    Whatever the dialog sends for a signed-in user with an e-mail passes the
    server's required-field test, and the server decodes the organisation (a
    safe integer, as every id is) and the flag the dialog held.
  */
  lemma SentEntriesDecode(form: UploadForm, file: UploadedFile, organizationId: int, user: AuthUser)
    requires SchemaAccepts(form)
    requires SafeInteger(organizationId) && organizationId != 0 && user.id != "" && user.email.Some? && user.email.value != ""
    ensures var sent := BuildEntries(form, file, organizationId, Some(user));
            && RequiredFieldsPresent(sent)
            && OrganizationIdOf(sent) == Some(organizationId)
            && DecodeProcessFile(sent.processFile) == form.processFile
  {
    var sent := BuildEntries(form, file, organizationId, Some(user));
    ParseIntOfIntToString(organizationId);
    assert OrganizationIdOf(sent) == Some(organizationId);
    assert form.fileName != "";
  }

  /** A submission without a user, or from a user without an e-mail, is refused by the server before anything is stored. */
  lemma NoUserNoUpload(form: UploadForm, file: UploadedFile, organizationId: int, user: Option<AuthUser>,
                       b: Backend, x: Extractor)
    requires user.None? || user.value.id == "" || user.value.email.None? || user.value.email.value == ""
    ensures ProcessStatement(BuildEntries(form, file, organizationId, user), b, x)
            == Run(Errored(MissingRequiredFields), None, None, [])
  {
  }

  /** Dropping a file whose name has an extension and submitting it hands the server the dropped file and its stem. */
  lemma DropThenSubmit(form: UploadForm, file: UploadedFile, organizationId: int, user: Option<AuthUser>,
                       action: SubmittedForm -> Delivery)
    requires '.' in file.name && Stem(file.name) != ""
    ensures var outcome := Submit(OnDrop(form, [file]), organizationId, user, action);
            && outcome.Answered?
            && outcome.sent.file == Some(file)
            && outcome.sent.fileName.value + FileExtension(file.name) == file.name
  {
    StemAndExtensionRebuildName(file.name);
    var stem := Stem(file.name);
    assert Utf16Length(stem) >= |stem| > 0;
  }
}

=== FILE: js.dfy ===
/**
  The JavaScript built-ins the core relies on, stated exactly for the inputs
  that matter here: white space and `trimStart`/`trim`, `parseInt` without a
  radix, `Number.prototype.toString` on integers, `toLowerCase`, string
  length in UTF-16 code units, and the values a `catch` clause can receive.
*/
module Js {
  import opened Wrappers
  import opened Text

  /** The characters ECMAScript counts as WhiteSpace or LineTerminator (what `trim*` and `parseInt` skip). */
  predicate IsWhitespace(c: char) {
    || ('\U{9}' <= c <= '\U{D}')      // tab, line feed, vertical tab, form feed, carriage return
    || c == ' ' || c == '\U{A0}' || c == '\U{1680}'
    || ('\U{2000}' <= c <= '\U{200A}')
    || c == '\U{2028}' || c == '\U{2029}' || c == '\U{202F}' || c == '\U{205F}'
    || c == '\U{3000}' || c == '\U{FEFF}'
  }

  /** `s.trimStart()`: `s` without its leading white space. */
  function TrimStart(s: string): (t: string)
    ensures |t| <= |s| && t == s[|s| - |t|..]
    ensures |t| > 0 ==> !IsWhitespace(t[0])
    ensures forall k :: 0 <= k < |s| - |t| ==> IsWhitespace(s[k])
  {
    if |s| > 0 && IsWhitespace(s[0]) then TrimStart(s[1..]) else s
  }

  /** `s.trimEnd()`: `s` without its trailing white space. */
  function TrimEnd(s: string): (t: string)
    ensures |t| <= |s| && t == s[..|t|]
    ensures |t| > 0 ==> !IsWhitespace(t[|t| - 1])
    ensures forall k :: |t| <= k < |s| ==> IsWhitespace(s[k])
  {
    if |s| > 0 && IsWhitespace(s[|s| - 1]) then TrimEnd(s[..|s| - 1]) else s
  }

  /** `s.trim()`. */
  function Trim(s: string): string {
    TrimEnd(TrimStart(s))
  }

  /** A text with no white space at either end is its own trim. */
  lemma TrimPlainCell(s: string)
    requires |s| > 0 && !IsWhitespace(s[0]) && !IsWhitespace(s[|s| - 1])
    ensures Trim(s) == s
  {
  }

  /** Number of UTF-16 code units of `s` (JavaScript's `s.length`): characters beyond U+FFFF take two. */
  function Utf16Length(s: string): (n: nat)
    ensures |s| <= n <= 2 * |s|
  {
    if |s| == 0 then 0
    else (if s[0] as int > 0xFFFF then 2 else 1) + Utf16Length(s[1..])
  }

  /** The UTF-16 length of a concatenation is the sum of the lengths. */
  lemma {:induction false} Utf16LengthAppend(a: string, b: string)
    ensures Utf16Length(a + b) == Utf16Length(a) + Utf16Length(b)
    decreases |a|
  {
    if |a| > 0 {
      assert (a + b)[1..] == a[1..] + b;
      assert (a + b)[0] == a[0];
      Utf16LengthAppend(a[1..], b);
    } else {
      assert a + b == b;
    }
  }

  /** Text within the Basic Multilingual Plane has one code unit per character. */
  lemma {:induction false} Utf16LengthBmp(s: string)
    requires forall k :: 0 <= k < |s| ==> s[k] as int <= 0xFFFF
    ensures Utf16Length(s) == |s|
    decreases |s|
  {
    if |s| > 0 {
      Utf16LengthBmp(s[1..]);
    }
  }

  /**
    `s.toLowerCase()` restricted to ASCII letters. Other characters are kept;
    the only non-ASCII characters whose lower case contains an ASCII letter
    are U+0130 and U+212A, which lower to text containing `i` and `k`.
  */
  function ToLowerAscii(s: string): (t: string)
    ensures |t| == |s|
    ensures forall k :: 0 <= k < |s| ==> t[k] == LowerAscii(s[k])
  {
    seq(|s|, k requires 0 <= k < |s| => LowerAscii(s[k]))
  }

  /** Lower case of one ASCII letter; every other character unchanged. */
  function LowerAscii(c: char): char {
    if 'A' <= c <= 'Z' then (c as int + 32) as char else c
  }

  /** The digit value of `c` in radices up to 36 (`0-9`, then `a-z` and `A-Z`). */
  function RadixDigit(c: char): (d: Option<nat>)
    ensures d.Some? ==> d.value < 36
    ensures IsDecimalDigit(c) ==> d == Some(DecimalValue(c))
  {
    if IsDecimalDigit(c) then Some(DecimalValue(c))
    else if 'a' <= c <= 'z' then Some((c as int - 'a' as int + 10) as nat)
    else if 'A' <= c <= 'Z' then Some((c as int - 'A' as int + 10) as nat)
    else None
  }

  /** True when `c` is a digit of the given radix. */
  predicate IsRadixDigit(c: char, radix: nat) {
    RadixDigit(c).Some? && RadixDigit(c).value < radix
  }

  /** The length of the longest prefix of `s` made of digits of the given radix. */
  function LeadingDigits(s: string, radix: nat): (k: nat)
    ensures k <= |s|
    ensures forall j :: 0 <= j < k ==> IsRadixDigit(s[j], radix)
    ensures k < |s| ==> !IsRadixDigit(s[k], radix)
  {
    if |s| > 0 && IsRadixDigit(s[0], radix) then 1 + LeadingDigits(s[1..], radix) else 0
  }

  /** The value of a string of digits of the given radix, most significant first. */
  function DigitsValue(s: string, radix: nat): nat
    requires forall j :: 0 <= j < |s| ==> IsRadixDigit(s[j], radix)
  {
    if |s| == 0 then 0
    else
      var init := s[..|s| - 1];
      assert forall j :: 0 <= j < |init| ==> init[j] == s[j];
      assert IsRadixDigit(s[|s| - 1], radix);
      var high: nat := DigitsValue(init, radix);
      var low: nat := RadixDigit(s[|s| - 1]).value;
      Shift(high, radix) + low
  }

  /** `high * radix`, a natural number. */
  function Shift(high: nat, radix: nat): nat {
    high * radix
  }

  /** The value of the longest digit prefix of `s`, or `None` when `s` does not start with a digit. */
  function ReadDigits(s: string, radix: nat): (r: Option<nat>)
    ensures r.None? <==> LeadingDigits(s, radix) == 0
  {
    var k := LeadingDigits(s, radix);
    if k == 0 then None
    else
      var digits := s[..k];
      assert forall j :: 0 <= j < k ==> digits[j] == s[j];
      Some(DigitsValue(digits, radix))
  }

  /**
    `parseInt(s)` with no radix, as section 19.2.5 of ECMAScript defines it:
    skip leading white space, take an optional sign, read hexadecimal after a
    `0x`/`0X` prefix and decimal otherwise, and stop at the first character
    that is not a digit. `None` stands for `NaN`; both zeros are `Some(0)`.
  */
  function ParseInt(s: string): Option<int>
  {
    var t := TrimStart(s);
    var negative := |t| > 0 && t[0] == '-';
    var u := if |t| > 0 && (t[0] == '-' || t[0] == '+') then t[1..] else t;
    var hex := |u| >= 2 && u[0] == '0' && (u[1] == 'x' || u[1] == 'X');
    var radix := if hex then 16 else 10;
    var body := if hex then u[2..] else u;
    match ReadDigits(body, radix)
    case None => None
    case Some(n) =>
      var v: int := n;
      Some(if negative then -v else v)
  }

  /** `Number.MAX_SAFE_INTEGER`, 2^53 - 1: every integer of at most this magnitude is exactly a double. */
  const MaxSafeInteger: int := 0x1F_FFFF_FFFF_FFFF

  /** `Number.isSafeInteger` for an integer. */
  predicate SafeInteger(i: int) {
    -MaxSafeInteger <= i <= MaxSafeInteger
  }

  /**
    `i.toString()` for a safe integer: decimal digits with a leading `-` when
    negative. Beyond the safe range a double prints rounded, and from 1e21 on
    in exponent form; no identifier the code renders gets there.
  */
  function IntToString(i: int): string {
    if i < 0 then "-" + NatToString(-i) else NatToString(i)
  }

  /** On an all-decimal string the radix-10 reading agrees with the decimal value. */
  lemma {:induction false} DecimalDigitsValue(s: string)
    requires AllDecimal(s)
    ensures forall j :: 0 <= j < |s| ==> IsRadixDigit(s[j], 10)
    ensures LeadingDigits(s, 10) == |s|
    ensures DigitsValue(s, 10) == DecimalStringValue(s)
    decreases |s|
  {
    if |s| > 0 {
      DecimalDigitsValue(s[1..]);
      DecimalDigitsValue(s[..|s| - 1]);
    }
  }

  /** Reading the decimal rendering of `n` as radix-10 digits gives `n`. */
  lemma ReadDigitsOfNatToString(n: nat)
    ensures ReadDigits(NatToString(n), 10) == Some(n)
  {
    var digits := NatToString(n);
    DecimalDigitsValue(digits);
    NatToStringValue(n);
    assert digits[..|digits|] == digits;
  }

  /** `parseInt` reads an unsigned decimal rendering, after an optional sign, back to its value. */
  lemma ParseIntOfDigits(s: string, n: nat)
    requires |s| >= 1 && !IsWhitespace(s[0])
    requires s == NatToString(n) || (s[0] == '-' && s[1..] == NatToString(n))
    ensures ParseInt(s) == Some(if s[0] == '-' then -(n as int) else n as int)
  {
    var digits := NatToString(n);
    assert TrimStart(s) == s;
    assert s[0] != '+' by {
      if s[0] != '-' {
        assert s == digits && IsDecimalDigit(digits[0]);
      }
    }
    var u := if s[0] == '-' then s[1..] else s;
    assert u == digits;
    assert |u| >= 2 ==> u[0] != '0';
    assert ReadDigits(u, 10) == Some(n) by {
      ReadDigitsOfNatToString(n);
    }
  }

  /** `parseInt(i.toString())` gives a safe integer back: the client's encoding of an id is read back exactly by the server. */
  lemma ParseIntOfIntToString(i: int)
    requires SafeInteger(i)
    ensures ParseInt(IntToString(i)) == Some(i)
  {
    var s := IntToString(i);
    if i < 0 {
      assert s[1..] == NatToString(-i);
      ParseIntOfDigits(s, -i);
    } else {
      assert IsDecimalDigit(s[0]);
      ParseIntOfDigits(s, i);
    }
  }

  /** A value a `catch` clause can receive: an `Error` instance (with its message) or any other thrown value. */
  datatype Thrown = ErrorObject(message: string) | OtherValue

  /** The text shown for a caught value: `error instanceof Error ? error.message : fallback`. */
  function MessageOf(t: Thrown, fallback: string): string {
    match t
    case ErrorObject(m) => m
    case OtherValue => fallback
  }
}

=== FILE: new_payer.dfy ===
/**
  The new-payer form of components/new-payer-form.tsx. After the schema
  accepts the values, the mutation refuses a reference that an existing row
  already holds in the organization, then inserts the payer and, when a
  reference is given, its `references` row between `begin_transaction` and
  `commit_transaction`; any failure in between is rolled back.

  The database is the abstract state `Db`; the query and insert failures and
  the identifiers the database assigns come from `NewPayerEnv`.
*/
module NewPayer {
  import opened Wrappers
  import opened Js
  import opened Tables

  /** The form values. */
  datatype PayerValues = PayerValues(
    firstName: string,
    lastName: string,
    email: string,
    phoneNumber: string,
    reference: string)

  /**
    What the database does during one run: whether the duplicate query
    errors (it then returns no data), the error the payer insert or the
    reference insert throws, and the identifiers assigned to the new rows.
  */
  datatype NewPayerEnv = NewPayerEnv(
    precheckFails: bool,
    payerInsertError: Option<Thrown>,
    newPayerId: string,
    referenceInsertError: Option<Thrown>,
    newReferenceId: int)

  /** The mutation's result (the new payer, or the message shown) and the database after it. */
  datatype NewPayerResult = NewPayerResult(outcome: Result<PayerRow, string>, db: Db)

  const ReferenceTaken := "This reference is already assigned to a payer"
  const CreateFailed := "Failed to create payer"

  // ---------------------------------------------------------------------------
  // Form schema

  /** `z.string().min(2).max(50)`, counted in UTF-16 code units. */
  predicate NameLengthOk(s: string) {
    2 <= Utf16Length(s) <= 50
  }

  /** `formSchema`; `isEmail` is the e-mail syntax check of `z.string().email()`. */
  predicate SchemaAccepts(v: PayerValues, isEmail: string -> bool) {
    NameLengthOk(v.firstName) && NameLengthOk(v.lastName) && isEmail(v.email)
  }

  /** `reference || values.reference`: the reference from the URL when it is non-empty, else the typed one. */
  function EffectiveReference(urlReference: Option<string>, v: PayerValues): (r: string)
    ensures r != "" <==> (urlReference.Some? && urlReference.value != "") || v.reference != ""
    ensures r == v.reference || (urlReference.Some? && r == urlReference.value && r != "")
  {
    if urlReference.Some? && urlReference.value != "" then urlReference.value else v.reference
  }

  // ---------------------------------------------------------------------------
  // References and their uniqueness

  /** Whether a reference row holds `details` in organization `org`. */
  predicate Holds(row: ReferenceRow, details: string, org: int) {
    row.referenceDetails == Some(details) && row.organizationId == org
  }

  /** The rows the duplicate query selects: `reference_details = details` and `organization_id = org`. */
  function Matching(refs: seq<ReferenceRow>, details: string, org: int): (m: seq<ReferenceRow>)
    ensures |m| <= |refs|
    ensures forall k :: 0 <= k < |m| ==> Holds(m[k], details, org)
    ensures |m| == 0 <==> forall k :: 0 <= k < |refs| ==> !Holds(refs[k], details, org)
  {
    if |refs| == 0 then []
    else
      var rest := Matching(refs[1..], details, org);
      assert forall k :: 1 <= k < |refs| ==> refs[k] == refs[1..][k - 1];
      if Holds(refs[0], details, org) then [refs[0]] + rest else rest
  }

  /** The duplicate query selects every row holding the reference in the organization, as often as it occurs, and no other. */
  lemma {:induction false} MatchingSelectsAll(refs: seq<ReferenceRow>, details: string, org: int)
    ensures forall x :: multiset(Matching(refs, details, org))[x] == if Holds(x, details, org) then multiset(refs)[x] else 0
    decreases |refs|
  {
    if |refs| > 0 {
      MatchingSelectsAll(refs[1..], details, org);
      assert refs == [refs[0]] + refs[1..];
    }
  }

  /** Two rows claim the same (non-null) reference in the same organization. */
  predicate SameKey(a: ReferenceRow, b: ReferenceRow) {
    a.referenceDetails.Some? && a.referenceDetails == b.referenceDetails && a.organizationId == b.organizationId
  }

  /** Every (reference_details, organization_id) pair occurs at most once. */
  predicate ReferencesUnique(refs: seq<ReferenceRow>) {
    forall i, j :: 0 <= i < j < |refs| ==> !SameKey(refs[i], refs[j])
  }

  /** Under uniqueness the duplicate query selects at most one row, so `.single()` sees every duplicate. */
  lemma {:induction false} UniqueMatchesAtMostOne(refs: seq<ReferenceRow>, details: string, org: int)
    requires ReferencesUnique(refs)
    ensures |Matching(refs, details, org)| <= 1
    decreases |refs|
  {
    if |refs| > 0 {
      var rest := refs[1..];
      assert ReferencesUnique(rest) by {
        forall i, j | 0 <= i < j < |rest|
          ensures !SameKey(rest[i], rest[j])
        {
          assert rest[i] == refs[i + 1] && rest[j] == refs[j + 1];
        }
      }
      UniqueMatchesAtMostOne(rest, details, org);
      if Holds(refs[0], details, org) {
        forall k | 0 <= k < |rest|
          ensures !Holds(rest[k], details, org)
        {
          assert rest[k] == refs[k + 1];
          assert !SameKey(refs[0], refs[k + 1]);
        }
      }
    }
  }

  // ---------------------------------------------------------------------------
  // The mutation

  /** The payer row the insert creates from the spread form values. */
  function NewPayerRow(v: PayerValues, userId: string): PayerRow {
    PayerRow(v.email, v.firstName, Some(v.lastName), None, v.phoneNumber, userId)
  }

  /** The reference row linking the new payer to the organization. */
  function NewReferenceRow(payerId: string, org: int, details: string, referenceId: int): ReferenceRow {
    ReferenceRow(None, org, payerId, Some(details), referenceId, None)
  }

  /** The duplicate test: `.single()` returns a row only when the query succeeds with exactly one match. */
  predicate DuplicateFound(db: Db, reference: string, org: int, env: NewPayerEnv) {
    reference != "" && !env.precheckFails && Single(Matching(db.references, reference, org)).Some?
  }

  /** `mutationFn` followed by `onError`'s choice of message. */
  function CreatePayer(db: Db, urlReference: Option<string>, organizationId: int, v: PayerValues,
                       env: NewPayerEnv): (res: NewPayerResult)
    // a duplicate is refused before anything is written
    ensures DuplicateFound(db, EffectiveReference(urlReference, v), organizationId, env) ==>
              res == NewPayerResult(Failure(ReferenceTaken), db)
    // all or nothing: a failure leaves every table as it was
    ensures res.outcome.Failure? ==> res.db == db
    ensures res.outcome.Success? <==>
              && !DuplicateFound(db, EffectiveReference(urlReference, v), organizationId, env)
              && env.payerInsertError.None?
              && (EffectiveReference(urlReference, v) == "" || env.referenceInsertError.None?)
    // a success adds the payer and, when a reference is given, exactly one reference row for it
    ensures res.outcome.Success? ==>
              && res.outcome.value == NewPayerRow(v, env.newPayerId)
              && res.db.payers == db.payers + [res.outcome.value]
              && res.db.payments == db.payments && res.db.unallocated == db.unallocated
              && (EffectiveReference(urlReference, v) == "" ==> res.db.references == db.references)
              && (EffectiveReference(urlReference, v) != "" ==>
                    res.db.references == db.references + [NewReferenceRow(res.outcome.value.userId, organizationId,
                                                                          EffectiveReference(urlReference, v),
                                                                          env.newReferenceId)])
  {
    var reference := EffectiveReference(urlReference, v);
    if DuplicateFound(db, reference, organizationId, env) then NewPayerResult(Failure(ReferenceTaken), db)
    else
      match env.payerInsertError
      case Some(thrown) => NewPayerResult(Failure(MessageOf(thrown, CreateFailed)), db)
      case None =>
        var payer := NewPayerRow(v, env.newPayerId);
        if reference != "" && env.referenceInsertError.Some? then
          NewPayerResult(Failure(MessageOf(env.referenceInsertError.value, CreateFailed)), db)
        else
          var references :=
            if reference == "" then db.references
            else db.references + [NewReferenceRow(payer.userId, organizationId, reference, env.newReferenceId)];
          NewPayerResult(Success(payer), db.(payers := db.payers + [payer], references := references))
  }

  /** `form.handleSubmit(onSubmit)`: the mutation runs only on values the schema accepts. */
  function SubmitNewPayer(db: Db, urlReference: Option<string>, organizationId: int, v: PayerValues,
                          isEmail: string -> bool, env: NewPayerEnv): (res: Option<NewPayerResult>)
    ensures res.Some? <==> SchemaAccepts(v, isEmail)
    ensures res.Some? ==> res.value == CreatePayer(db, urlReference, organizationId, v, env)
  {
    if SchemaAccepts(v, isEmail) then Some(CreatePayer(db, urlReference, organizationId, v, env)) else None
  }

  /** A payer row whose names and e-mail satisfy the form's schema. */
  predicate PayerMeetsSchema(p: PayerRow, isEmail: string -> bool) {
    NameLengthOk(p.firstName) && p.lastName.Some? && NameLengthOk(p.lastName.value) && isEmail(p.email)
  }

  /**
    The schema gate makes it an invariant of the payers table that every
    payer created through the form has names of 2 to 50 code units and a
    valid e-mail; values the schema rejects reach no table.
  */
  lemma SubmitKeepsPayersValid(db: Db, urlReference: Option<string>, organizationId: int, v: PayerValues,
                               isEmail: string -> bool, env: NewPayerEnv)
    requires forall k :: 0 <= k < |db.payers| ==> PayerMeetsSchema(db.payers[k], isEmail)
    ensures var res := SubmitNewPayer(db, urlReference, organizationId, v, isEmail, env);
            && (res.None? ==> !SchemaAccepts(v, isEmail))
            && (res.Some? ==> forall k :: 0 <= k < |res.value.db.payers| ==> PayerMeetsSchema(res.value.db.payers[k], isEmail))
  {
    var res := SubmitNewPayer(db, urlReference, organizationId, v, isEmail, env);
    if res.Some? && res.value.outcome.Success? {
      assert PayerMeetsSchema(res.value.outcome.value, isEmail);
    }
  }

  /**
    Run one after another, payer creations keep every reference unique in its
    organization, as long as the duplicate query answers.
  */
  lemma CreatePayerKeepsReferencesUnique(db: Db, urlReference: Option<string>, organizationId: int,
                                         v: PayerValues, env: NewPayerEnv)
    requires ReferencesUnique(db.references)
    requires !env.precheckFails
    ensures ReferencesUnique(CreatePayer(db, urlReference, organizationId, v, env).db.references)
  {
    var reference := EffectiveReference(urlReference, v);
    var res := CreatePayer(db, urlReference, organizationId, v, env);
    if res.outcome.Success? && reference != "" {
      var refs := db.references;
      var added := NewReferenceRow(env.newPayerId, organizationId, reference, env.newReferenceId);
      UniqueMatchesAtMostOne(refs, reference, organizationId);
      assert |Matching(refs, reference, organizationId)| == 0;
      var after := refs + [added];
      assert res.db.references == after;
      forall i, j | 0 <= i < j < |after|
        ensures !SameKey(after[i], after[j])
      {
        if j == |refs| {
          assert !Holds(refs[i], reference, organizationId);
        }
      }
    }
  }

  /**
    When the duplicate query errors, `.single()` returns no data and the check
    lets a second row with the same reference through.
  */
  lemma FailedPrecheckAdmitsDuplicate(db: Db, v: PayerValues, env: NewPayerEnv)
    requires db.references == [NewReferenceRow("payer-1", 7, "ACME", 1)]
    requires v.reference == "ACME"
    requires env.precheckFails && env.payerInsertError.None? && env.referenceInsertError.None?
    ensures ReferencesUnique(db.references)
    ensures !ReferencesUnique(CreatePayer(db, None, 7, v, env).db.references)
  {
    var after := CreatePayer(db, None, 7, v, env).db.references;
    assert SameKey(after[0], after[1]);
  }
}

=== FILE: notifications.dfy ===
/**
  The notifications bell: components/notifications-dropdown-wrapper.tsx
  fetches a user's notifications and fills in missing values, and
  components/notifications-dropdown.tsx counts the unread ones, shows a
  "Read" button on each unread entry and marks an entry read optimistically,
  restoring the cached list when the request fails.

  The query cache is modelled as an `Option` of a list: `None` is a key with
  no data yet.
*/
module Notifications {
  import opened Wrappers

  /** A JSON value (the `Json` type of lib/supabase/database.types.ts); `JNull` is `null`. */
  datatype Json =
    | JNull
    | JBool(b: bool)
    | JNumber(n: real)
    | JString(s: string)
    | JArray(items: seq<Json>)
    | JObject(fields: seq<(string, Json)>)

  /** The `notification_type` enum. */
  datatype NotificationType = Payment | System | Organization

  /** A row of `notifications` as the query returns it: `read` and `data` may be null. */
  datatype StoredNotification = StoredNotification(
    createdAt: string,
    data: Json,
    id: string,
    message: string,
    read: Option<bool>,
    title: string,
    kind: NotificationType,
    userId: string)

  /** A notification as the dropdown holds it: `read` is a boolean and `data` is never falsy. */
  datatype Notification = Notification(
    createdAt: string,
    data: Json,
    id: string,
    message: string,
    read: bool,
    title: string,
    kind: NotificationType,
    userId: string)

  /** The empty object `{}`. */
  const EmptyObject := JObject([])

  /** JavaScript falsiness of a JSON value: `null`, `false`, `0` and `""`. */
  predicate Falsy(v: Json) {
    v == JNull || v == JBool(false) || v == JNumber(0.0) || v == JString("")
  }

  // ---------------------------------------------------------------------------
  // Normalisation of fetched rows

  /** `{ ...n, read: n.read ?? false, data: n.data || {} }`. */
  function NormalizeOne(n: StoredNotification): (r: Notification)
    ensures r.read <==> n.read == Some(true)
    ensures Falsy(n.data) ==> r.data == EmptyObject
    ensures !Falsy(n.data) ==> r.data == n.data
    ensures !Falsy(r.data)
    ensures r.id == n.id && r.title == n.title && r.message == n.message
    ensures r.kind == n.kind && r.createdAt == n.createdAt && r.userId == n.userId
  {
    Notification(n.createdAt, if Falsy(n.data) then EmptyObject else n.data, n.id, n.message,
                 n.read.GetOr(false), n.title, n.kind, n.userId)
  }

  /** `getNotifications`' map over `notifications || []`. */
  function Normalize(rows: Option<seq<StoredNotification>>): (r: seq<Notification>)
    ensures rows.None? ==> r == []
    ensures rows.Some? ==> |r| == |rows.value|
    ensures rows.Some? ==> forall k :: 0 <= k < |r| ==> r[k] == NormalizeOne(rows.value[k])
  {
    match rows
    case None => []
    case Some(ns) => seq(|ns|, k requires 0 <= k < |ns| => NormalizeOne(ns[k]))
  }

  // ---------------------------------------------------------------------------
  // Unread count, badge and button

  /** `notifications.filter(n => !n.read).length`. */
  function UnreadCount(ns: seq<Notification>): (c: nat)
    ensures c <= |ns|
    ensures c == 0 <==> forall k :: 0 <= k < |ns| ==> ns[k].read
  {
    if |ns| == 0 then 0
    else
      assert forall k :: 1 <= k < |ns| ==> ns[k] == ns[1..][k - 1];
      (if ns[0].read then 0 else 1) + UnreadCount(ns[1..])
  }

  /** `{!notification.read && <Button>}`. */
  predicate ShowsReadButton(n: Notification) {
    !n.read
  }

  /** The badge on the bell: the unread count, shown only when some entry offers a "Read" button. */
  function Badge(ns: seq<Notification>): (b: Option<nat>)
    ensures b.None? <==> forall k :: 0 <= k < |ns| ==> !ShowsReadButton(ns[k])
    ensures b.Some? ==> b.value == UnreadCount(ns) && b.value > 0
  {
    if UnreadCount(ns) > 0 then Some(UnreadCount(ns)) else None
  }

  /** Stored rows that count as unread after normalisation: `read` false or null. */
  function StoredUnread(rows: seq<StoredNotification>): nat {
    if |rows| == 0 then 0
    else (if rows[0].read == Some(true) then 0 else 1) + StoredUnread(rows[1..])
  }

  /** After normalisation the count covers exactly the rows stored as unread or with no value. */
  lemma {:induction false} NormalizedUnreadCount(rows: seq<StoredNotification>)
    ensures UnreadCount(Normalize(Some(rows))) == StoredUnread(rows)
    decreases |rows|
  {
    if |rows| > 0 {
      NormalizedUnreadCount(rows[1..]);
      assert Normalize(Some(rows))[1..] == Normalize(Some(rows[1..]));
    }
  }

  // ---------------------------------------------------------------------------
  // Optimistic mark-as-read

  /** The optimistic update: `(old = []) => old.map(n => n.id === id ? { ...n, read: true } : n)`. */
  function MarkRead(cache: Option<seq<Notification>>, id: string): (r: seq<Notification>)
    ensures cache.None? ==> r == []
    ensures cache.Some? ==> |r| == |cache.value|
    ensures cache.Some? ==> forall k :: 0 <= k < |r| ==>
              r[k] == (if cache.value[k].id == id then cache.value[k].(read := true) else cache.value[k])
    ensures forall k :: 0 <= k < |r| && r[k].id == id ==> r[k].read
  {
    var ns := cache.GetOr([]);
    seq(|ns|, k requires 0 <= k < |ns| => if ns[k].id == id then ns[k].(read := true) else ns[k])
  }

  /** Marking the same entry twice is marking it once. */
  lemma MarkReadIdempotent(cache: Option<seq<Notification>>, id: string)
    ensures MarkRead(Some(MarkRead(cache, id)), id) == MarkRead(cache, id)
  {
  }

  /** Marking never raises the unread count; it drops by the number of unread entries with that id. */
  lemma {:induction false} MarkReadCount(ns: seq<Notification>, id: string)
    ensures UnreadCount(MarkRead(Some(ns), id)) <= UnreadCount(ns)
    ensures UnreadCount(MarkRead(Some(ns), id)) == UnreadCount(ns) - UnreadWithId(ns, id)
    decreases |ns|
  {
    if |ns| > 0 {
      MarkReadCount(ns[1..], id);
      assert MarkRead(Some(ns), id)[1..] == MarkRead(Some(ns[1..]), id);
    }
  }

  /** Unread entries carrying `id`. */
  function UnreadWithId(ns: seq<Notification>, id: string): nat {
    if |ns| == 0 then 0
    else (if !ns[0].read && ns[0].id == id then 1 else 0) + UnreadWithId(ns[1..], id)
  }

  /**
    The cache after one mark-as-read, before the refetch `onSettled` asks for:
    the optimistic list when the request succeeds; when it fails, the
    snapshot put back. Putting back an absent snapshot is a no-op of the query
    cache, so the optimistic `[]` stays.
  */
  function MarkAsRead(cache: Option<seq<Notification>>, id: string, requestFails: bool): (after: Option<seq<Notification>>)
    ensures !requestFails ==> after == Some(MarkRead(cache, id))
    ensures requestFails && cache.Some? ==> after == cache
    ensures requestFails && cache.None? ==> after == Some([])
  {
    var snapshot := cache;
    var optimistic := Some(MarkRead(cache, id));
    if !requestFails then optimistic
    else if snapshot.Some? then snapshot
    else optimistic
  }

  /** What the dropdown lists: the cached data, or the server-rendered list while there is none. */
  function Shown(cache: Option<seq<Notification>>, initial: seq<Notification>): (ns: seq<Notification>)
    ensures cache.Some? ==> ns == cache.value
    ensures cache.None? ==> ns == initial
  {
    cache.GetOr(initial)
  }

  /** A failed request leaves exactly the list the user saw before clicking, as long as data had loaded. */
  lemma FailedMarkShowsSnapshot(cache: Option<seq<Notification>>, id: string, initial: seq<Notification>)
    requires cache.Some?
    ensures Shown(MarkAsRead(cache, id, true), initial) == Shown(cache, initial)
    ensures UnreadCount(Shown(MarkAsRead(cache, id, true), initial)) == UnreadCount(Shown(cache, initial))
  {
  }

  /**
    With no data loaded yet, the optimistic update replaces the server-rendered
    list by `[]`, and a failed request does not bring it back.
  */
  lemma FailedMarkBeforeLoadEmptiesList(id: string, initial: seq<Notification>)
    ensures Shown(MarkAsRead(None, id, true), initial) == []
  {
  }
}

=== FILE: process_bank_statement.dfy ===
/**
  The server action of app/actions/process-bank-statement.ts: validate the
  submitted form, upload the file to storage under a sanitised path, record
  a `bank-statements` row and, when asked to process the file, extract its
  transactions and insert one `payments` row per transaction. Every failure
  is caught and answered as `{ error: message }`.

  Authentication, storage, the database and the file parser are oracles
  (`Backend`, `Extractor`); the action runs its steps in order and stops at
  the first failure. Nothing is undone on a later failure.
*/
module ProcessBankStatement {
  import opened Wrappers
  import opened Text
  import opened Js
  import opened Tables
  import opened AiParser

  /** The signed-in user as the auth service reports it. */
  datatype AuthUser = AuthUser(id: string, email: Option<string>)

  /** The form entries as `formData.get` returns them; `None` is an absent entry (`null`). */
  datatype SubmittedForm = SubmittedForm(
    file: Option<UploadedFile>,
    fileName: Option<string>,
    organizationId: Option<string>,
    processFile: Option<string>,
    orgCreatedBy: Option<string>,
    orgName: Option<string>)

  /** The values written to `bank-statements`. */
  datatype StatementInsert = StatementInsert(
    filePath: string,
    fileType: string,
    organizationId: int,
    processed: bool,
    uploadedAt: string,
    uploadedBy: string)

  /** One object of the batch written to `payments`. */
  datatype PaymentInsert = PaymentInsert(
    amount: real,
    date: string,
    transactionReference: string,
    bankStatementId: int,
    organizationId: int,
    createdAt: string,
    createdBy: Option<string>)

  /**
    The services the action calls: the signed-in user (asked twice: once
    before the upload and again before the payments are written), the clock, the storage
    upload (the stored path, or the storage error's message), `getPublicUrl`,
    the statement insert (the new `file_id`, or the error's message) and the
    batch insert of payments (the error's message when it is rejected; a
    batch is all-or-nothing).
  */
  datatype Backend = Backend(
    user: Option<AuthUser>,
    userAtPayments: Option<AuthUser>,
    now: string,
    upload: string -> Result<string, string>,
    publicUrl: string -> string,
    insertStatement: StatementInsert -> Result<int, string>,
    insertPayments: seq<PaymentInsert> -> Option<string>)

  /** `{ success: true, data: statement }` or `{ error: message }`. */
  datatype ActionResult = Succeeded(statement: BankStatementRow) | Errored(message: string)

  /** The action's answer and what it left behind: the stored file, the statement row and the payments written. */
  datatype Run = Run(
    result: ActionResult,
    storedPath: Option<string>,
    statement: Option<BankStatementRow>,
    payments: seq<PaymentInsert>)

  const MissingRequiredFields := "Missing required fields"
  const NotLoggedIn := "User is not logged in"
  const ResourceExists := "The resource already exists"
  const FileAlreadyExists := "File already exists"
  const NoPublicUrl := "Error getting public URL"
  const UnknownFailure := "An error occurred while processing the request"

  // ---------------------------------------------------------------------------
  // Form decoding

  /** JavaScript truthiness of a string entry: present and non-empty. */
  predicate Truthy(entry: Option<string>) {
    entry.Some? && entry.value != ""
  }

  /** `parseInt(formData.get("organizationId") as string)`; an absent entry is read as the text `"null"`. */
  function OrganizationIdOf(form: SubmittedForm): Option<int> {
    ParseInt(form.organizationId.GetOr("null"))
  }

  /** `formData.get("processFile") === "true"`. */
  function DecodeProcessFile(entry: Option<string>): (b: bool)
    ensures b <==> entry == Some("true")
  {
    entry == Some("true")
  }

  /** The `!file || !fileName || !organizationId || !orgCreatedBy || !orgName` test, negated: `NaN` and zero ids fail it. */
  predicate RequiredFieldsPresent(form: SubmittedForm) {
    && form.file.Some?
    && Truthy(form.fileName)
    && OrganizationIdOf(form).Some? && OrganizationIdOf(form).value != 0
    && Truthy(form.orgCreatedBy)
    && Truthy(form.orgName)
  }

  // ---------------------------------------------------------------------------
  // Storage path

  /** `` `.${file.name.split(".").pop()}` ``: a dot and the text after the last dot, or the whole name when it has none. */
  function FileExtension(name: string): string {
    "." + LastSegment(name, '.')
  }

  /**
    The class `[a-z0-9_.-\/]` under the `i` flag: ASCII letters of either
    case, digits, `_`, and the range from `.` to `/`, which holds just those
    two characters. The hyphen is not in it.
  */
  predicate InPathClass(c: char) {
    ('a' <= c <= 'z') || ('A' <= c <= 'Z') || ('0' <= c <= '9') || c == '_' || ('.' <= c <= '/')
  }

  /** The same class read with a literal hyphen, as `_.-` might suggest. */
  predicate InPathClassWithHyphen(c: char) {
    InPathClass(c) || c == '-'
  }

  /** What one character becomes in the path. */
  predicate PathSafe(c: char) {
    InPathClass(c) || c == '-'
  }

  /**
    `s.replace(/[^...]/gi, "-")` for the character class `allowed`. Without
    the `u` flag the regular expression works on UTF-16 code units, so a
    character beyond U+FFFF, two code units, becomes two hyphens.
  */
  function ReplaceOutside(s: string, allowed: char -> bool): (r: string)
    ensures Utf16Length(r) == Utf16Length(s)
    ensures forall k :: 0 <= k < |r| ==> allowed(r[k]) || r[k] == '-'
    ensures |r| > 0 ==> (allowed(r[0]) || r[0] == '-')
    decreases |s|
  {
    if |s| == 0 then ""
    else
      var head := if allowed(s[0]) then [s[0]] else if s[0] as int > 0xFFFF then "--" else "-";
      var rest := ReplaceOutside(s[1..], allowed);
      Utf16LengthAppend(head, rest);
      assert Utf16Length(head) == (if s[0] as int > 0xFFFF then 2 else 1) by {
        if |head| == 2 {
          assert head[1..] == "-";
        }
      }
      head + rest
  }

  /** On characters that are allowed or hyphens, the replacement changes nothing. */
  lemma {:induction false} ReplaceOutsideFixes(s: string, allowed: char -> bool)
    requires forall k :: 0 <= k < |s| ==> allowed(s[k]) || s[k] == '-'
    ensures ReplaceOutside(s, allowed) == s
    decreases |s|
  {
    if |s| > 0 {
      ReplaceOutsideFixes(s[1..], allowed);
      assert s == [s[0]] + s[1..];
    }
  }

  /** On text within the Basic Multilingual Plane the replacement works position by position. */
  lemma {:induction false} ReplaceOutsidePositions(s: string, allowed: char -> bool)
    requires forall k :: 0 <= k < |s| ==> s[k] as int <= 0xFFFF
    ensures |ReplaceOutside(s, allowed)| == |s|
    ensures forall k :: 0 <= k < |s| ==>
              ReplaceOutside(s, allowed)[k] == (if allowed(s[k]) then s[k] else '-')
    decreases |s|
  {
    if |s| > 0 {
      ReplaceOutsidePositions(s[1..], allowed);
      var r := ReplaceOutside(s, allowed);
      assert forall k :: 1 <= k < |s| ==> r[k] == ReplaceOutside(s[1..], allowed)[k - 1];
    }
  }

  /** `.trimStart().replace(/[^a-z0-9_.-\/]/gi, "-")`. */
  function SanitizePath(raw: string): (r: string)
    ensures forall k :: 0 <= k < |r| ==> PathSafe(r[k])
    ensures |r| == Utf16Length(TrimStart(raw))
  {
    var r := ReplaceOutside(TrimStart(raw), InPathClass);
    Utf16LengthBmp(r);
    r
  }

  /** Sanitising a sanitised path changes nothing. */
  lemma SanitizePathIdempotent(raw: string)
    ensures SanitizePath(SanitizePath(raw)) == SanitizePath(raw)
  {
    var r := SanitizePath(raw);
    assert TrimStart(r) == r by {
      if |r| > 0 {
        assert PathSafe(r[0]);
      }
    }
    ReplaceOutsideFixes(r, InPathClass);
  }

  /**
    Reading the class as written or with a literal hyphen gives the same path:
    a hyphen is replaced by a hyphen.
  */
  lemma {:induction false} HyphenReadingIrrelevant(s: string)
    ensures ReplaceOutside(s, InPathClass) == ReplaceOutside(s, InPathClassWithHyphen)
    decreases |s|
  {
    if |s| > 0 {
      HyphenReadingIrrelevant(s[1..]);
    }
  }

  /** The path before sanitising: `${orgCreatedBy}/${organizationId}-${orgName}/${fileName}${fileExt}`. */
  function RawStoragePath(orgCreatedBy: string, organizationId: int, orgName: string,
                          fileName: string, fileExt: string): string {
    orgCreatedBy + "/" + IntToString(organizationId) + "-" + orgName + "/" + fileName + fileExt
  }

  // ---------------------------------------------------------------------------
  // Error mapping and row construction

  /** The message thrown for a failed upload. */
  function UploadErrorMessage(storageMessage: string): string {
    if storageMessage == ResourceExists then FileAlreadyExists
    else "Error uploading file: " + storageMessage
  }

  /** Distinct storage errors are reported distinctly: a duplicate upload is never confused with another failure. */
  lemma UploadErrorMessageInjective(m1: string, m2: string)
    requires UploadErrorMessage(m1) == UploadErrorMessage(m2)
    ensures m1 == m2
  {
    var prefix := "Error uploading file: ";
    if m1 != ResourceExists && m2 != ResourceExists {
      assert m1 == (prefix + m1)[|prefix|..];
      assert m2 == (prefix + m2)[|prefix|..];
    }
  }

  /** One payment object per extracted transaction, in order, all pointing at the new statement. */
  function PaymentRowsFor(txs: seq<ExtractedTransaction>, statementId: int, organizationId: int,
                          now: string, createdBy: Option<string>): (rows: seq<PaymentInsert>)
    ensures |rows| == |txs|
    ensures forall k :: 0 <= k < |txs| ==>
              && rows[k].amount == txs[k].amount
              && rows[k].date == txs[k].date
              && rows[k].transactionReference == txs[k].reference
              && rows[k].bankStatementId == statementId
              && rows[k].organizationId == organizationId
  {
    seq(|txs|, k requires 0 <= k < |txs| =>
      PaymentInsert(txs[k].amount, txs[k].date, txs[k].reference, statementId, organizationId, now, createdBy))
  }

  /** `user?.id` of the second `getUser`: absent when no one is signed in by then. */
  function CreatedBy(user: Option<AuthUser>): Option<string> {
    if user.Some? then Some(user.value.id) else None
  }

  // ---------------------------------------------------------------------------
  // The action

  /**
    `processBankStatement`. The steps run in order; the first failure ends
    the run with its message, leaving whatever earlier steps wrote.
  */
  function ProcessStatement(form: SubmittedForm, b: Backend, x: Extractor): (run: Run)
    // required fields are checked before anything else happens
    ensures !RequiredFieldsPresent(form) ==> run == Run(Errored(MissingRequiredFields), None, None, [])
    ensures RequiredFieldsPresent(form) && b.user.None? ==> run == Run(Errored(NotLoggedIn), None, None, [])
    // a success records one statement row carrying the decoded flag and organization
    ensures run.result.Succeeded? ==>
              && RequiredFieldsPresent(form) && b.user.Some? && run.storedPath.Some?
              && run.statement == Some(run.result.statement)
              && run.result.statement.processed == DecodeProcessFile(form.processFile)
              && run.result.statement.organizationId == OrganizationIdOf(form).value
              && run.result.statement.uploadedBy == b.user.value.id
              && run.result.statement.fileType == form.file.value.mimeType
    // no statement without a stored file, no payments without a statement
    ensures run.statement.Some? ==> run.storedPath.Some?
    ensures |run.payments| > 0 ==> run.statement.Some? && run.result.Succeeded?
    // payments only when processing was asked for; then one per extracted transaction
    ensures !DecodeProcessFile(form.processFile) ==> run.payments == []
    ensures run.result.Succeeded? && DecodeProcessFile(form.processFile) ==>
              && ParseFile(form.file.value, x).Success?
              && run.payments == PaymentRowsFor(ParseFile(form.file.value, x).value.transactions,
                                                run.result.statement.fileId, OrganizationIdOf(form).value,
                                                b.now, CreatedBy(b.userAtPayments))
  {
    if !RequiredFieldsPresent(form) then Run(Errored(MissingRequiredFields), None, None, [])
    else
      var file := form.file.value;
      var organizationId := OrganizationIdOf(form).value;
      var processFile := DecodeProcessFile(form.processFile);
      match b.user
      case None => Run(Errored(NotLoggedIn), None, None, [])
      case Some(user) =>
        var fileExt := FileExtension(file.name);
        var filePath := SanitizePath(RawStoragePath(form.orgCreatedBy.value, organizationId,
                                                    form.orgName.value, form.fileName.value, fileExt));
        match b.upload(filePath)
        case Failure(message) => Run(Errored(UploadErrorMessage(message)), None, None, [])
        case Success(stored) =>
          var url := b.publicUrl(stored);
          if url == "" then Run(Errored(NoPublicUrl), Some(stored), None, [])
          else
            var insert := StatementInsert(url, file.mimeType, organizationId, processFile, b.now, user.id);
            match b.insertStatement(insert)
            case Failure(message) => Run(Errored("Error inserting record: " + message), Some(stored), None, [])
            case Success(fileId) =>
              var statement := BankStatementRow(fileId, url, file.mimeType, organizationId, processFile, b.now, user.id);
              if !processFile then Run(Succeeded(statement), Some(stored), Some(statement), [])
              else
                match ParseFile(file, x)
                case Failure(thrown) => Run(Errored(MessageOf(thrown, UnknownFailure)), Some(stored), Some(statement), [])
                case Success(extraction) =>
                  var payments := PaymentRowsFor(extraction.transactions, fileId, organizationId, b.now,
                                                 CreatedBy(b.userAtPayments));
                  match b.insertPayments(payments)
                  case Some(message) =>
                    Run(Errored("Error inserting payments: " + message), Some(stored), Some(statement), [])
                  case None => Run(Succeeded(statement), Some(stored), Some(statement), payments)
  }

  /** The path the file is stored under when the upload is attempted. */
  function AttemptedPath(form: SubmittedForm): string
    requires RequiredFieldsPresent(form)
  {
    SanitizePath(RawStoragePath(form.orgCreatedBy.value, OrganizationIdOf(form).value, form.orgName.value,
                                form.fileName.value, FileExtension(form.file.value.name)))
  }

  /** A failed upload is answered with its mapped message and leaves nothing behind. */
  lemma UploadFailureReported(form: SubmittedForm, b: Backend, x: Extractor)
    requires RequiredFieldsPresent(form) && b.user.Some?
    ensures b.upload(AttemptedPath(form)).Failure? ==>
              ProcessStatement(form, b, x)
              == Run(Errored(UploadErrorMessage(b.upload(AttemptedPath(form)).error)), None, None, [])
    ensures b.upload(AttemptedPath(form)) == Failure(ResourceExists) ==>
              ProcessStatement(form, b, x).result == Errored(FileAlreadyExists)
  {
  }

  /**
    Once the statement row exists, a failure while processing is reported but
    nothing is undone: the stored file and the statement row, marked
    processed, stay, and no payment is written.
  */
  lemma ProcessingFailureKeepsStatement(form: SubmittedForm, b: Backend, x: Extractor, stored: string, fileId: int)
    requires RequiredFieldsPresent(form) && b.user.Some? && DecodeProcessFile(form.processFile)
    ensures (&& b.upload(AttemptedPath(form)) == Success(stored)
             && b.publicUrl(stored) != ""
             && b.insertStatement(StatementInsert(b.publicUrl(stored), form.file.value.mimeType,
                                                  OrganizationIdOf(form).value, true, b.now, b.user.value.id))
                == Success(fileId)
             && ParseFile(form.file.value, x).Failure?) ==>
      ProcessStatement(form, b, x)
      == Run(Errored(MessageOf(ParseFile(form.file.value, x).error, UnknownFailure)),
             Some(stored),
             Some(BankStatementRow(fileId, b.publicUrl(stored), form.file.value.mimeType,
                                   OrganizationIdOf(form).value, true, b.now, b.user.value.id)),
             [])
  {
  }

  /** The `bank-statements` insert the action sends once the file is stored under `url`. */
  function StatementInsertFor(form: SubmittedForm, b: Backend, url: string): StatementInsert
    requires RequiredFieldsPresent(form) && b.user.Some?
  {
    StatementInsert(url, form.file.value.mimeType, OrganizationIdOf(form).value,
                    DecodeProcessFile(form.processFile), b.now, b.user.value.id)
  }

  /** The statement row the database returns for that insert under identifier `fileId`. */
  function StatementFor(form: SubmittedForm, b: Backend, url: string, fileId: int): BankStatementRow
    requires RequiredFieldsPresent(form) && b.user.Some?
  {
    BankStatementRow(fileId, url, form.file.value.mimeType, OrganizationIdOf(form).value,
                     DecodeProcessFile(form.processFile), b.now, b.user.value.id)
  }

  /** Storing the file, finding its URL and inserting the statement all succeed, leading to identifier `fileId`. */
  predicate StatementStored(form: SubmittedForm, b: Backend, stored: string, fileId: int)
    requires RequiredFieldsPresent(form) && b.user.Some?
  {
    && b.upload(AttemptedPath(form)) == Success(stored)
    && b.publicUrl(stored) != ""
    && b.insertStatement(StatementInsertFor(form, b, b.publicUrl(stored))) == Success(fileId)
  }

  /** Without processing, a stored file and statement row make the action succeed with that row and no payments. */
  lemma UnprocessedUploadSucceeds(form: SubmittedForm, b: Backend, x: Extractor, stored: string, fileId: int)
    requires RequiredFieldsPresent(form) && b.user.Some? && !DecodeProcessFile(form.processFile)
    ensures StatementStored(form, b, stored, fileId) ==>
              var st := StatementFor(form, b, b.publicUrl(stored), fileId);
              ProcessStatement(form, b, x) == Run(Succeeded(st), Some(stored), Some(st), [])
  {
  }

  /**
    With processing, once the statement row exists and the file parses, a
    payments insert that reports no error makes the action succeed with the
    statement row and one payment per extracted transaction.
  */
  lemma ProcessedUploadSucceeds(form: SubmittedForm, b: Backend, x: Extractor, stored: string, fileId: int)
    requires RequiredFieldsPresent(form) && b.user.Some? && DecodeProcessFile(form.processFile)
    ensures (&& StatementStored(form, b, stored, fileId)
             && ParseFile(form.file.value, x).Success?
             && b.insertPayments(PaymentRowsFor(ParseFile(form.file.value, x).value.transactions, fileId,
                                                OrganizationIdOf(form).value, b.now, CreatedBy(b.userAtPayments)))
                == None) ==>
              var st := StatementFor(form, b, b.publicUrl(stored), fileId);
              ProcessStatement(form, b, x)
              == Run(Succeeded(st), Some(stored), Some(st),
                     PaymentRowsFor(ParseFile(form.file.value, x).value.transactions, fileId,
                                    OrganizationIdOf(form).value, b.now, CreatedBy(b.userAtPayments)))
  {
  }

  /** A stored file without a public URL is reported as such; the file stays and no statement is written. */
  lemma MissingPublicUrlReported(form: SubmittedForm, b: Backend, x: Extractor, stored: string)
    requires RequiredFieldsPresent(form) && b.user.Some?
    ensures (b.upload(AttemptedPath(form)) == Success(stored) && b.publicUrl(stored) == "") ==>
              ProcessStatement(form, b, x) == Run(Errored(NoPublicUrl), Some(stored), None, [])
  {
  }

  /** A rejected statement insert is reported with the database's message; the stored file stays. */
  lemma RecordInsertFailureReported(form: SubmittedForm, b: Backend, x: Extractor, stored: string, message: string)
    requires RequiredFieldsPresent(form) && b.user.Some?
    ensures (&& b.upload(AttemptedPath(form)) == Success(stored)
             && b.publicUrl(stored) != ""
             && b.insertStatement(StatementInsertFor(form, b, b.publicUrl(stored))) == Failure(message)) ==>
              ProcessStatement(form, b, x)
              == Run(Errored("Error inserting record: " + message), Some(stored), None, [])
  {
  }

  /**
    A rejected payments insert is reported with the database's message, but
    nothing is undone: the stored file and the statement row stay, and no
    payment is written.
  */
  lemma PaymentsInsertFailureKeepsStatement(form: SubmittedForm, b: Backend, x: Extractor, stored: string,
                                            fileId: int, message: string)
    requires RequiredFieldsPresent(form) && b.user.Some? && DecodeProcessFile(form.processFile)
    ensures (&& StatementStored(form, b, stored, fileId)
             && ParseFile(form.file.value, x).Success?
             && b.insertPayments(PaymentRowsFor(ParseFile(form.file.value, x).value.transactions, fileId,
                                                OrganizationIdOf(form).value, b.now, CreatedBy(b.userAtPayments)))
                == Some(message)) ==>
              var st := StatementFor(form, b, b.publicUrl(stored), fileId);
              ProcessStatement(form, b, x)
              == Run(Errored("Error inserting payments: " + message), Some(stored), Some(st), [])
  {
  }
}

=== FILE: tables.dfy ===
/**
  Row shapes of the database tables the core reads and writes (the `Row`
  types of lib/supabase/database.types.ts), and the abstract database state
  the two multi-step operations act on. Nullable columns are `Option`s;
  numeric columns are `int` (identifiers) or `real` (amounts).
*/
module Tables {
  import opened Wrappers

  /** A row of `bank-statements`. */
  datatype BankStatementRow = BankStatementRow(
    fileId: int,
    filePath: string,
    fileType: string,
    organizationId: int,
    processed: bool,
    uploadedAt: string,
    uploadedBy: string)

  /** A row of `payments`. */
  datatype PaymentRow = PaymentRow(
    amount: real,
    bankStatementId: int,
    createdAt: Option<string>,
    date: string,
    organizationId: Option<int>,
    payerId: Option<string>,
    paymentId: int,
    referenceOnDeposit: Option<string>,
    transactionReference: string,
    updatedAt: Option<string>)

  /** A row of `references`: the reference text a payer uses on deposits to an organization. */
  datatype ReferenceRow = ReferenceRow(
    createdAt: Option<string>,
    organizationId: int,
    payerId: string,
    referenceDetails: Option<string>,
    referenceId: int,
    updatedAt: Option<string>)

  /** A row of `unallocated_payments`: a deposit not yet attributed to a payer. */
  datatype UnallocatedPaymentRow = UnallocatedPaymentRow(
    amount: real,
    bankStatementId: int,
    createdAt: string,
    date: string,
    isAllocated: bool,
    organizationId: int,
    transactionReference: string,
    unallocatedPaymentId: int)

  /** A row of `payers`. */
  datatype PayerRow = PayerRow(
    email: string,
    firstName: string,
    lastName: Option<string>,
    organizationId: Option<int>,
    phoneNumber: string,
    userId: string)

  /** The tables the payer and assignment operations touch. */
  datatype Db = Db(
    payers: seq<PayerRow>,
    references: seq<ReferenceRow>,
    payments: seq<PaymentRow>,
    unallocated: seq<UnallocatedPaymentRow>)

  /**
    The result of a `.single()` query: the row when exactly one row matches,
    otherwise (no row, several rows) no data.
  */
  function Single<T>(rows: seq<T>): (r: Option<T>)
    ensures r.Some? <==> |rows| == 1
    ensures r.Some? ==> r.value == rows[0]
  {
    if |rows| == 1 then Some(rows[0]) else None
  }
}

=== FILE: text.dfy ===
/**
  Language-neutral string helpers: splitting on a separator character and
  joining with a separator string (with the semantics of JavaScript's
  `String.prototype.split` and `Array.prototype.join`), and decimal digits.
*/
module Text {

  /** `parts` joined with `sep` between consecutive elements; `[]` joins to `""`. */
  function Join(parts: seq<string>, sep: string): string
  {
    if |parts| == 0 then ""
    else if |parts| == 1 then parts[0]
    else parts[0] + sep + Join(parts[1..], sep)
  }

  /**
    `s` cut at every occurrence of `sep`. Like JavaScript's `s.split(sep)`:
    there is always at least one part, `""` splits to `[""]`, and a separator
    at either end yields an empty part there.
  */
  function Split(s: string, sep: char): (parts: seq<string>)
    ensures |parts| >= 1
    ensures forall k :: 0 <= k < |parts| ==> sep !in parts[k]
    ensures Join(parts, [sep]) == s
    decreases |s|
  {
    if |s| == 0 then [""]
    else if s[0] == sep then
      var rest := Split(s[1..], sep);
      assert s == [sep] + s[1..];
      [""] + rest
    else
      var rest := Split(s[1..], sep);
      var parts := [[s[0]] + rest[0]] + rest[1..];
      assert parts[1..] == rest[1..];
      assert s == [s[0]] + s[1..];
      parts
  }

  /** Appending one part extends the joined string by the separator and that part. */
  lemma {:induction false} JoinSnoc(parts: seq<string>, p: string, sep: string)
    requires |parts| >= 1
    ensures Join(parts + [p], sep) == Join(parts, sep) + sep + p
    decreases |parts|
  {
    if |parts| == 1 {
      assert (parts + [p])[1..] == [p];
    } else {
      assert (parts + [p])[1..] == parts[1..] + [p];
      JoinSnoc(parts[1..], p, sep);
    }
  }

  /** Splitting a joined list of separator-free parts gives the parts back. */
  lemma {:induction false} SplitJoin(parts: seq<string>, sep: char)
    requires |parts| >= 1
    requires forall k :: 0 <= k < |parts| ==> sep !in parts[k]
    ensures Split(Join(parts, [sep]), sep) == parts
    decreases |Join(parts, [sep])|
  {
    var s := Join(parts, [sep]);
    if |parts[0]| == 0 {
      if |parts| == 1 {
      } else {
        assert s == [sep] + Join(parts[1..], [sep]);
        assert s[1..] == Join(parts[1..], [sep]);
        SplitJoin(parts[1..], sep);
        assert parts == [""] + parts[1..];
      }
    } else {
      var c := parts[0][0];
      var shorter := [parts[0][1..]] + parts[1..];
      assert shorter[1..] == parts[1..];
      assert forall k :: 0 <= k < |shorter| ==> sep !in shorter[k] by {
        forall k | 0 <= k < |shorter| ensures sep !in shorter[k] {
          if k == 0 {
            assert forall j :: 0 <= j < |parts[0][1..]| ==> parts[0][1..][j] == parts[0][j + 1];
          }
        }
      }
      assert c != sep by { assert parts[0][0] in parts[0]; }
      if |parts| == 1 {
        assert s == parts[0] == [c] + parts[0][1..];
        assert Join(shorter, [sep]) == parts[0][1..];
      } else {
        assert s == [c] + (parts[0][1..] + [sep] + Join(parts[1..], [sep]));
        assert Join(shorter, [sep]) == parts[0][1..] + [sep] + Join(parts[1..], [sep]);
      }
      assert s[1..] == Join(shorter, [sep]);
      assert s[0] == c;
      SplitJoin(shorter, sep);
      assert [c] + parts[0][1..] == parts[0];
    }
  }

  /** A character absent from every part and from the separator is absent from the joined string. */
  lemma {:induction false} JoinAvoids(parts: seq<string>, sep: string, c: char)
    requires c !in sep
    requires forall k :: 0 <= k < |parts| ==> c !in parts[k]
    ensures c !in Join(parts, sep)
    decreases |parts|
  {
    if |parts| > 1 {
      JoinAvoids(parts[1..], sep, c);
    }
  }

  /** The last of the parts `s` splits into at `sep`. */
  function LastSegment(s: string, sep: char): string {
    var parts := Split(s, sep);
    parts[|parts| - 1]
  }

  /** All but the last part of `s` split at `sep`, joined again with `sep`. */
  function AllButLastSegment(s: string, sep: char): string {
    var parts := Split(s, sep);
    Join(parts[..|parts| - 1], [sep])
  }

  /**
    Cutting `s` at its last separator: when `s` contains `sep`, the text
    before the last separator, the separator and the last part make `s` again;
    otherwise the last part is all of `s` and nothing comes before it.
  */
  lemma LastSegmentSplits(s: string, sep: char)
    ensures sep in s ==> AllButLastSegment(s, sep) + [sep] + LastSegment(s, sep) == s
    ensures sep !in s ==> LastSegment(s, sep) == s && AllButLastSegment(s, sep) == ""
  {
    var parts := Split(s, sep);
    var n := |parts|;
    if n == 1 {
      assert Join(parts, [sep]) == parts[0];
    } else {
      assert parts == parts[..n - 1] + [parts[n - 1]];
      JoinSnoc(parts[..n - 1], parts[n - 1], [sep]);
      assert sep in s by {
        assert Join(parts, [sep]) == parts[0] + [sep] + Join(parts[1..], [sep]);
        assert s[|parts[0]|] == sep;
      }
    }
  }

  /** The decimal digit characters. */
  predicate IsDecimalDigit(c: char) {
    '0' <= c <= '9'
  }

  /** The numeric value of a decimal digit character. */
  function DecimalValue(c: char): nat
    requires IsDecimalDigit(c)
  {
    (c as int - '0' as int) as nat
  }

  /** The character of a decimal digit. */
  function DigitChar(d: nat): (c: char)
    requires d < 10
    ensures IsDecimalDigit(c) && DecimalValue(c) == d
  {
    ['0', '1', '2', '3', '4', '5', '6', '7', '8', '9'][d]
  }

  /** True when every character of `s` is a decimal digit. */
  predicate AllDecimal(s: string) {
    forall k :: 0 <= k < |s| ==> IsDecimalDigit(s[k])
  }

  /** The value of a string of decimal digits, most significant first. */
  function DecimalStringValue(s: string): nat
    requires AllDecimal(s)
    decreases |s|
  {
    if |s| == 0 then 0
    else DecimalStringValue(s[..|s| - 1]) * 10 + DecimalValue(s[|s| - 1])
  }

  /** The shortest decimal rendering of `n` (no leading zeros), as `Number.prototype.toString` gives it. */
  function NatToString(n: nat): (s: string)
    ensures |s| >= 1 && AllDecimal(s)
    ensures |s| > 1 ==> s[0] != '0'
  {
    if n < 10 then [DigitChar(n)]
    else NatToString(n / 10) + [DigitChar(n % 10)]
  }

  /** Reading back the decimal rendering of `n` gives `n`. */
  lemma {:induction false} NatToStringValue(n: nat)
    ensures DecimalStringValue(NatToString(n)) == n
  {
    if n >= 10 {
      var s := NatToString(n);
      assert s[..|s| - 1] == NatToString(n / 10);
      NatToStringValue(n / 10);
    }
  }

  /** `z` zero digits. */
  function Zeros(z: nat): (s: string)
    ensures |s| == z && forall k :: 0 <= k < z ==> s[k] == '0'
  {
    seq(z, _ => '0')
  }

  /** `n` rendered in decimal and left-padded with zeros to at least `width` characters. */
  function PadNat(n: nat, width: nat): (s: string)
    ensures |s| >= width && AllDecimal(s)
  {
    var digits := NatToString(n);
    if |digits| >= width then digits
    else Zeros(width - |digits|) + digits
  }

  /** Leading zeros do not change the value of a digit string. */
  lemma {:induction false} LeadingZerosValue(z: nat, s: string)
    requires AllDecimal(s)
    ensures AllDecimal(Zeros(z) + s)
    ensures DecimalStringValue(Zeros(z) + s) == DecimalStringValue(s)
    decreases |s|
  {
    var t := Zeros(z) + s;
    if |s| == 0 {
      assert t == Zeros(z);
      AllZerosValue(z);
    } else {
      assert t[..|t| - 1] == Zeros(z) + s[..|s| - 1];
      LeadingZerosValue(z, s[..|s| - 1]);
    }
  }

  /** A string of zeros has value zero. */
  lemma {:induction false} AllZerosValue(z: nat)
    ensures AllDecimal(Zeros(z))
    ensures DecimalStringValue(Zeros(z)) == 0
  {
    if z > 0 {
      assert Zeros(z)[..z - 1] == Zeros(z - 1);
      AllZerosValue(z - 1);
    }
  }

  /** Reading back a zero-padded rendering of `n` gives `n`. */
  lemma PadNatValue(n: nat, width: nat)
    ensures DecimalStringValue(PadNat(n, width)) == n
  {
    var digits := NatToString(n);
    assert DecimalStringValue(digits) == n by {
      NatToStringValue(n);
    }
    if |digits| < width {
      var zeros := Zeros(width - |digits|);
      assert PadNat(n, width) == zeros + digits;
      assert DecimalStringValue(zeros + digits) == DecimalStringValue(digits) by {
        LeadingZerosValue(width - |digits|, digits);
      }
    }
  }
}

=== FILE: wrappers.dfy ===
/** Failure-compatible wrapper datatypes used throughout the model. */
module Wrappers {

  /** An optional value: `None` plays the role of JavaScript's `null`/`undefined`. */
  datatype Option<+T> = None | Some(value: T) {

    /** The wrapped value, or `default` when there is none (JavaScript's `x ?? default`). */
    function GetOr(default: T): T {
      match this
      case Some(v) => v
      case None => default
    }
  }

  /** Either a value or an error. */
  datatype Result<+R, +E> = Success(value: R) | Failure(error: E)
}
